=== FILE: README.md ===
# Seasonal drama catalog — a Dafny model of its data logic

The site lists Japanese TV dramas by broadcast season. It has a visitor page
(`js/script.js`), a management page (`js/admin.js`) and shared helpers
(`js/utils.js`). Under the templating and event wiring sits a small amount of
pure logic over one value, the **catalog**: an object mapping each season key
(`autumn`, `winter`, `spring`, `summer`) to an ordered list of drama records.
This project models that logic and proves what it does.

- `wrappers.dfy` (`Wrappers`): `Option` and `Result`, for the source's
  `null` and thrown errors.
- `text.dfy` (`Text`): the host string primitives the code relies on. These
  are `trim` (with JavaScript's exact white-space set), `split` on one
  character, `join`, `toLowerCase` (ASCII letters only) and `includes`.
- `records.dfy` (`Records`): the drama record and the catalog. The catalog
  is a `map<string, seq<Drama>>` plus `order`, the order the object
  enumerates its keys in. This is the order every `for..in`, `Object.keys`
  and `Object.values` scan follows. The file also holds the catalog
  invariants: every key enumerated once (`WellFormed`), every entry under
  its own season (`WellSeasoned`), and unique ids (`UniqueIds`).
- `store.dfy` (`Store`): the catalog operations.
  - `findDramaById`.
  - The data part of `saveDrama`: building the record, splitting the cast,
    coercing the rating, and the upsert.
  - The `deleteDrama` loop.
  - The built-in catalog of `loadDramas`.

  The data parts of `saveDrama` and `deleteDrama` are the same code on both
  pages (js/script.js:348-404, js/admin.js:140-197).
- `utils.dfy` (`Utils`): `getAllGenres`, `paginate` (with `Array.prototype.slice`
  and `Math.ceil`), and the width/height rule of `compressImage`.
- `views.dfy` (`Views`): the card-visibility predicates of `applyFilters` and
  `searchDramas`, and the genre check boxes of the edit form.
- `admin.dfy` (`Admin`): the statistics panel, and the management page's
  promises about save and delete.

Every operation is a pure function of its inputs. The host's side effects
become parameters:
- `generateId()` is a `freshId` argument.
- The `confirm()` answer is a `confirmed` flag.
- What `localStorage` held is an `Option<Catalog>`.
- `parseFloat` of the rating field is an `Option<real>`, with `None` for NaN.

Behaviours of the code worth knowing:
- The built-in catalog has two autumn entries (js/script.js:24-72).
- The search does not look at the cast (js/script.js:441-446).
- The genre filter tests for a substring of the comma-joined genres. It does
  not test list membership (js/script.js:430).
- The rating is not forced to be non-negative: `parseFloat(x) || 0` keeps
  negative numbers (js/script.js:360).

## Model

| member | source | states |
|---|---|---|
| Text.Trim | js/script.js:365 | the result is the slice of the input left after white space is removed at both ends: everything outside it is white space, and it neither starts nor ends with white space |
| Text.TrimIdempotent | js/script.js:365 | trimming a trimmed string changes nothing, so a name the cast box shows trimmed comes back the same |
| Text.Split | js/script.js:365 | `split(',')` gives one more piece than the text has commas, and no piece holds a comma |
| Text.SplitJoin | js/script.js:321 | splitting a join of comma-free parts gives the parts back (and `JoinSplit` gives the converse) |
| Text.Lower | js/script.js:441-444 | lower-casing keeps the length, turns each ASCII upper-case letter into its lower-case letter, leaves no upper-case letter and changes nothing else |
| Text.ContainsIffOccurs | js/script.js:446 | `includes` holds exactly when the term occurs at some offset |
| Text.ContainsLower | js/script.js:446 | a match survives lower-casing both strings, which is what makes the search case-insensitive |
| Store.FirstIndex | js/script.js:375 | `findIndex` by id, as `saveDrama` (and `deleteDrama` at line 399) call it: the first position holding the id, or none exactly when no entry has it |
| Store.FirstWithId | js/script.js:273 | `find` by id: a drama is found exactly when `findIndex` finds a position, and it is the drama at that position |
| Store.LocateIn | js/script.js:398-400 | the delete scan over the seasons in key order: a slot it returns is in a listed season and is the first index of the id there; it finds none exactly when no listed season holds the id |
| Store.FindDramaById | js/script.js:271-277 | a found drama has the id and sits in a listed season; null exactly when no season holds the id |
| Store.FindIsFirstInCatalogOrder | js/script.js:272-276 | the drama found is the first one with the id in catalog order (seasons in key order, each list front to back) |
| Store.DeleteDrama | js/script.js:395-404 | without confirmation, or for an unknown id, the catalog is unchanged; otherwise one season's list loses exactly one entry and every other season is untouched |
| Store.RemoveAt | js/script.js:401 | `splice(index, 1)`: one entry fewer, the entries before the index kept in place and those after it shifted down by one |
| Store.DeleteRemovesFirstMatch | js/script.js:398-404 | in catalog order, a delete removes exactly the first entry with the id and keeps the rest in order |
| Store.DeleteLeavesIdAbsent | js/script.js:398-404 | when ids are unique, the id is gone from the catalog after a delete |
| Store.CastList | js/script.js:365 | the cast text becomes one name per comma-separated piece, trimmed, so always one more name than commas |
| Store.CastRoundTrip | js/script.js:321 | a non-empty cast of trimmed, comma-free names shown in the form as `join(', ')` and saved again comes back unchanged |
| Store.EmptyCastBecomesOneBlankName | js/script.js:365 | an empty cast shown in the form and saved again becomes a cast of one empty name |
| Store.BuildDrama | js/script.js:349-372 | the record keeps the form's id when there is one and takes the generated id otherwise; season and genres come from the form, the rating is the parsed number or 0, the cast is the form's text split at commas with each piece trimmed, and title, original title, year, day, poster, description, director, screenwriter, broadcast and the three links are copied from the form |
| Store.Upsert | js/script.js:375-382 | an entry with the same id is replaced at its index, keeping the length and every other entry; otherwise the record is appended at the end |
| Store.SaveDrama | js/script.js:374-382 | a save fails exactly when the season is not a key; otherwise only the target season's list changes (by the upsert), and key order and keys stay the same |
| Store.SaveKeepsSeasonsConsistent | js/script.js:350-382 | if every entry sits under its own season before a save, it still does after |
| Store.SaveFreshAppends | js/script.js:379-382 | a new record under a fresh id is appended to its season, is then found by its id, and the catalog grows by one |
| Store.SaveFreshKeepsIdsUnique | js/script.js:379-382 | a catalog with unique ids keeps them unique when a record is created under a fresh id |
| Store.SeasonChangeDuplicates | js/script.js:374-382 | a season change through the form leaves the old copy behind: the id is then stored twice, and the stale copy is the one found |
| Store.SaveDramaMoving | js/script.js:348-382 | the corrected save treats a season change as a move; it fails in the same cases, and keeps key order and keys |
| Store.SaveMovingKeepsIdsUnique | js/script.js:348-382 | with the corrected save, ids stay unique, entries stay under their seasons, and the saved record is the one found |
| Store.LoadDramas | js/script.js:17-73 | stored data is returned as is; otherwise the built-in catalog has keys autumn, winter, spring, summer in that order, two autumn entries and no others |
| Store.SeedIsConsistent | js/script.js:24-72 | the built-in catalog enumerates each key once and keeps its entries under their own season; its ids are unique when the generator gave distinct ids |
| Utils.AddNew | js/utils.js:60-66 | a `Set` fed labels in turn keeps the labels it already had at the front and adds each new label once; it holds exactly the labels seen |
| Utils.AddNewKeepsFirstOrder | js/utils.js:60-66 | the labels the `Set` adds come in the order of their first occurrence in the input, so insertion order is first-met order |
| Utils.GenreOccurrences | js/utils.js:61-63 | the labels fed to the `Set`: a label occurs exactly when some drama of the list lists it |
| Utils.AllGenres | js/utils.js:59-67 | the genre index has no repeats and holds a genre exactly when some drama of some season lists it |
| Utils.Slice | js/utils.js:74 | `slice` runs from the clamped start to the clamped end, negative arguments counting back from the end, and is empty when the clamped start is not below the clamped end; for non-negative arguments it is the plain slice cut off at the array's end, and it is empty when the end is 0 |
| Utils.CeilDiv | js/utils.js:75 | `Math.ceil(n / d)` is the least count of `d`-sized pages that holds `n` items |
| Utils.Paginate | js/utils.js:70-78 | for page 1 or later the data runs from `(page-1)*pageSize` to `page*pageSize`, cut off at the array's end, so a page past the end is empty; data never exceeds `pageSize`; `totalItems` is the array length; `totalPages` is the ceiling of length over page size, 0 for an empty array |
| Utils.PagesCoverArray | js/utils.js:70-77 | the data of pages 1 to `totalPages`, concatenated, is exactly the array |
| Utils.PageOfElement | js/utils.js:71-76 | element `j` is on page `j / pageSize + 1` at position `j % pageSize`, and that page is within the page count |
| Utils.RoundDiv | js/utils.js:96 | `Math.round(p / q)` is within one half of the exact quotient, with halves rounded up |
| Utils.ScaleDimensions | js/utils.js:93-104 | a landscape image wider than the limit gets width `maxWidth` and its height scaled by the same ratio and rounded; a portrait or square image taller than the limit gets height `maxHeight` and a rounded width no larger than it; every other image keeps its size; no dimension ever grows, and a landscape image never turns portrait |
| Utils.LandscapeIgnoresMaxHeight | js/utils.js:94-98 | with the 800 x 600 defaults, 1000 x 900 comes out 800 x 720 and 800 x 700 is left as is, both taller than 600 |
| Utils.FitDimensions | js/utils.js:93-104 | the corrected rule always brings the image inside the box, never enlarges it, and leaves an image that already fits alone |
| Utils.FitHonoursMaxHeight | js/utils.js:93-104 | the corrected rule turns 1000 x 900 into 667 x 600 and 800 x 700 into 686 x 600 |
| Views.FilterShown | js/script.js:426-432 | a card is shown exactly when each filter is empty or agrees: equal year, equal season, and the genre text occurring in the comma-joined genres |
| Views.ApplyFilters | js/script.js:414-434 | one visibility flag per card, in card order, each the filter test of its card |
| Views.NoFiltersShowAll | js/script.js:426-432 | with every filter at "all", every card is shown |
| Views.GenreMemberPasses | js/script.js:430 | a drama passes the genre filter set to any genre it lists |
| Views.GenreFilterMatchesFragments | js/script.js:430 | a drama whose only genre is "Mystery" passes the filter "My", which it does not list |
| Views.SeasonFilterRedundantOnItsPage | js/script.js:429 | on a season's own page of a catalog whose entries sit under their own season, the season filter hides nothing |
| Views.SearchShown | js/script.js:441-446 | a card is shown exactly when the term occurs in its lower-cased title, original title, description or comma-joined genres |
| Views.SearchDramas | js/script.js:437-452 | one visibility flag per card, each the search test of its card |
| Views.OnSearch | js/script.js:484-492 | the search box's text is lower-cased before the search |
| Views.EmptySearchShowsAll | js/script.js:446 | an empty search shows every card |
| Views.SearchFindsTypedTitle | js/script.js:485 | typing any part of a title, original title or description, in any mix of upper and lower case, shows the card |
| Views.SearchIgnoresInputCase | js/script.js:485 | the case of the typed text never changes what is shown |
| Views.SearchIgnoresCast | js/script.js:441-446 | whether a card is shown does not depend on its cast |
| Views.CastOnlyMatchIsHidden | js/script.js:441-446 | a name that occurs only in the cast finds nothing |
| Views.RenderGenreCheckboxes | js/script.js:335-345 | one unticked box per genre of the index, in index order |
| Views.CheckedValues | js/script.js:359 | the form's genre list holds exactly the values of the ticked boxes |
| Views.CheckedValuesAppend | js/script.js:359 | `getAll` lists values in page order: the boxes before contribute before the boxes after |
| Views.CheckedValuesOne | js/script.js:359 | a single box contributes its value once when ticked and nothing otherwise, so with `CheckedValuesAppend` each ticked box gives one entry in page order |
| Views.AdminPopulate | js/admin.js:120-123 | after `populateForm` every box is ticked exactly when its value is one of the drama's genres |
| Views.FirstBox | js/script.js:329 | `querySelector` by value finds the first box with that value, or none when no box has it |
| Views.TickFirst | js/script.js:329-330 | `querySelector` then `checked = true`: only the first box carrying the genre becomes ticked, and every other box keeps its value and its tick |
| Views.ScriptPopulate | js/script.js:328-331 | a box ends up ticked exactly when it was ticked before, or it is the first box carrying one of the drama's genres |
| Views.ScriptKeepsStaleTicks | js/script.js:328-331 | a box ticked before `populateForm` for a genre the drama lacks stays ticked on the visitor page and is cleared on the management page |
| Views.PopulateAgreeOnFreshBoxes | js/admin.js:120-123 | on freshly rendered boxes the two versions of `populateForm` tick the same boxes |
| Views.OpenEditBoxes | js/script.js:288-303 | opening the editor fills the form and only then renders the genre boxes, so every box the user sees is unticked |
| Views.PopulateIfFound | js/admin.js:83-86 | the edit-mode step: when the id is found, every box is set by the drama's genres; otherwise the boxes are left as they are |
| Views.ReplaceBoxes | js/admin.js:131 | the `innerHTML` re-render discards the boxes on the page: one unticked box per index genre, in index order |
| Views.EditFormDropsGenres | js/admin.js:83-95 | editing a drama that has genres opens a form with no genre ticked, and saving it unchanged stores the drama with no genres |
| Views.OpenEditBoxesFixed | js/admin.js:72-99 | with the boxes rendered first and filled in after, a box is ticked exactly when its genre is one of the edited drama's |
| Views.FixedEditFormKeepsGenres | js/admin.js:83-95 | with the corrected order the form submits the same set of genres as the edited drama's, each once, in the genre index's order |
| Views.FixedEditFormReorders | js/admin.js:83-95 | even corrected, saving unchanged can reorder the genre list: a drama listing "y", "x" in a catalog whose index meets "x" first submits "x", "y" |
| Admin.RenderAdminStats | js/admin.js:15-35 | the total is the number of dramas in the whole catalog, and each season shows its list's length, or 0 when it is not a key |
| Admin.SeasonCountIsListLength | js/admin.js:17-26 | in a well-formed catalog a season's count is its list's length when it is a key and 0 otherwise |
| Admin.SaveChangesTotal | js/admin.js:166-174 | a save that appends adds one to the total; one that replaces in place leaves the total as it was |
| Admin.DeleteChangesTotal | js/admin.js:188-197 | a confirmed delete of a stored id takes one from the total; any other delete leaves it |
| Admin.SaveReplacesInPlace | js/admin.js:141-170 | a form carrying the id of an entry in the target season keeps that id and overwrites that entry where it stands, leaving the list's length and other entries alone |
| Admin.SavedRecordSitsUnderItsSeason | js/admin.js:142-173 | the saved record is stored in the list its own season field names |
| Admin.DeleteKeepsLaterDuplicate | js/admin.js:191-197 | the delete stops at the first match, so a later entry with the same id survives it |

## Left out

- Rendering and wiring: card and detail markup, season navigation, resource summaries, modals, event listeners and the `confirm()` dialog, which is a boolean parameter here.
- Persistence: `localStorage`, JSON encoding and `Utils.loadData`/`saveData`. Stored data is an `Option<Catalog>` argument. The throw of `JSON.parse` on corrupt stored text is not modelled, and neither is stored data that is not a catalog.
- `generateId`: it reads the clock and a random source, so the id is a parameter. Lemmas that need it to be new assume it is absent from the catalog.
- `fetchDoubanInfo`: a timer-driven mock that fills the form with fixed data.
- Image processing beyond the size rule: `FileReader`, `Image`, the canvas, `toBlob` and `fileToBase64` are host I/O.
- `debounce`, `formatDate` and `isValidUrl`: they wrap timers, locale formatting and the URL parser.
- The `VisitorDramaManager` base class of the management page: it is not part of this model. Its `loadDramas`, find, filter and search logic is taken to be the visitor page's.
- Text.Lower: lower-cases ASCII letters only, because Unicode case mapping is a host table. The search lemmas hold for that restriction.
- Store.BuildDrama: the rating is what `parseFloat` returned, given as an `Option<real>`. Number parsing, NaN and `-0` are not modelled, and the value is exact, not a double.
- Store.BuildDrama: a legacy record whose cast is a single string, which `populateForm` shows as is, is not modelled: the cast is always a list.
- Views.ScriptPopulate: the genre is pasted into a quoted CSS attribute selector (js/script.js:329). A genre containing `"` or a line break makes the selector invalid and `querySelector` throws. A backslash starts a CSS escape, so the selector looks for a different value (`a\q` looks for `aq`) and the page leaves the box unticked or ticks another. Neither is modelled: the model ticks the first box whose value equals the genre.
- Views.FilterShown: the page reads the card's `data-year`, `data-season` and `data-genre` attributes out of the rendered markup. The model takes them to be the raw field values, so fields are assumed free of markup characters such as `<`, `&` and `"`; a genre holding `"` would cut the attribute short.
- Views.SearchShown: the page searches the `textContent` of the rendered title, original title and description elements. The model searches the raw fields, so they are assumed free of markup: a title `A&amp;B` would be searched as `A&B`, and `<b>x</b>` as `x`.
- Utils.RoundDiv: `Math.round` of a double is modelled as exact rounding of the rational `p / q` with halves up. The double division can differ in the last place.
- Utils.Paginate: requires a positive page size. With 0 the page count would be `Infinity` or `NaN`, and with a negative size it would be negative; the model has no such counts.
- Utils.ScaleDimensions: image sizes are natural numbers. The source has no other kind.

## Findings

| source | as written | input that shows it | evidently intended | confidence | as-written member | corrected member |
|---|---|---|---|---|---|---|
| js/script.js:374-382 | the upsert looks only in the form's season, so changing an entry's season appends a second record with the same id and leaves the old one | an entry "a" under winter saved with season spring: "a" is then in both lists, and `findDramaById("a")` still returns the winter copy | a season change moves the entry, and ids stay unique | not executed | Store.SeasonChangeDuplicates | Store.SaveMovingKeepsIdsUnique |
| js/utils.js:94-98 | the landscape branch narrows to `maxWidth` but never checks the height against `maxHeight` | 1000 x 900 with limits 800 x 600 gives 800 x 720; 800 x 700 is left at 800 x 700 | the result fits within `maxWidth` x `maxHeight` | not executed | Utils.LandscapeIgnoresMaxHeight | Utils.FitDimensions |
| js/admin.js:83-95 | `openEditDramaModal` calls `populateForm` before `renderGenreCheckboxes`, which replaces the boxes it just ticked with unticked ones (js/script.js:291-303 does the same) | editing any drama with genres, such as the built-in "相棒 第24季" with genres 悬疑 and 刑侦: no box is ticked, and saving unchanged stores an empty genre list | the edited drama's genres are ticked, so saving unchanged keeps the same set of genres (in the genre index's order, so the list can still be reordered) | not executed | Views.EditFormDropsGenres | Views.FixedEditFormKeepsGenres |

=== FILE: admin.dfy ===
/**
  The management page: the statistics panel, and what its save and delete
  buttons promise about the catalog. The page's `saveDrama` and `deleteDrama`
  share their data logic with the visitor page; `Store` models that logic.
 */
module Admin {
  import opened Wrappers
  import opened Records
  import opened Store

  /** The numbers of the statistics panel: all dramas, then one per season. */
  datatype Stats = Stats(total: nat, winter: nat, spring: nat, summer: nat, autumn: nat)

  /** The count the panel shows for season `k`: the length of its list when
      `k` is one of the catalog's keys, and the initial 0 otherwise. */
  function SeasonCount(c: Catalog, k: string): nat {
    if k in c.order then |SeasonOf(c.lists, k)| else 0
  }

  /** `renderAdminStats`: walks the keys in order, recording each season's
      list length and adding it to the total. */
  method RenderAdminStats(c: Catalog) returns (s: Stats)
    ensures s.total == |Flatten(c)|
    ensures s.winter == SeasonCount(c, Winter) && s.spring == SeasonCount(c, Spring)
    ensures s.summer == SeasonCount(c, Summer) && s.autumn == SeasonCount(c, Autumn)
  {
    var total := 0;
    var counts: map<string, nat> := map[Winter := 0, Spring := 0, Summer := 0, Autumn := 0];
    var i := 0;
    while i < |c.order|
      invariant 0 <= i <= |c.order|
      invariant total == |FlattenKeys(c.lists, c.order[..i])|
      invariant Winter in counts && Spring in counts && Summer in counts && Autumn in counts
      invariant forall k :: k in counts ==> counts[k] == (if k in c.order[..i] then |SeasonOf(c.lists, k)| else 0)
    {
      var k := c.order[i];
      var n := |SeasonOf(c.lists, k)|;
      FlattenKeysSnoc(c.lists, c.order[..i], k);
      assert c.order[..i + 1] == c.order[..i] + [k];
      counts := counts[k := n];
      total := total + n;
      i := i + 1;
    }
    assert c.order[..i] == c.order;
    s := Stats(total, counts[Winter], counts[Spring], counts[Summer], counts[Autumn]);
  }

  /** In a well-formed catalog a season's count is its list's length, and 0
      exactly when the season is not a key or its list is empty. */
  lemma SeasonCountIsListLength(c: Catalog, k: string)
    requires WellFormed(c)
    ensures SeasonCount(c, k) == if k in c.lists then |c.lists[k]| else 0
  {
  }

  /** A save that stores a new record adds one to the total; one that
      replaces a record of the same id in the target season leaves it. */
  lemma SaveChangesTotal(c: Catalog, form: Form, freshId: string)
    requires WellFormed(c) && form.season in c.lists
    ensures SaveDrama(c, form, freshId).Success?
    ensures var d := BuildDrama(form, freshId);
      |Flatten(SaveDrama(c, form, freshId).value)|
        == |Flatten(c)| + (if FirstIndex(c.lists[form.season], d.id).Some? then 0 else 1)
  {
    var k := form.season;
    var r := SaveDrama(c, form, freshId).value;
    FlattenKeysUpdateLength(c.lists, c.order, k, r.lists[k]);
    assert c.lists[k := r.lists[k]] == r.lists;
  }

  /** A confirmed delete of an id the catalog holds takes one from the
      total; any other delete leaves it. */
  lemma DeleteChangesTotal(c: Catalog, id: string, confirmed: bool)
    requires Distinct(c.order)
    ensures |Flatten(DeleteDrama(c, id, confirmed))|
      + (if confirmed && !AbsentFrom(c.lists, c.order, id) then 1 else 0) == |Flatten(c)|
  {
    if confirmed && !AbsentFrom(c.lists, c.order, id) {
      DeleteRemovesFirstMatch(c, id);
      FindIsFirstInCatalogOrder(c, id);
      RemoveFirstAtFirstIndex(Flatten(c), id);
    }
  }

  /** A save whose form carries the id of an entry of the target season
      keeps that id and overwrites that entry where it stands: the list keeps
      its length and every other entry. */
  lemma SaveReplacesInPlace(c: Catalog, form: Form, freshId: string, i: nat)
    requires form.id != "" && form.season in c.lists
    requires FirstIndex(c.lists[form.season], form.id) == Some(i)
    ensures var l := SaveDrama(c, form, freshId).value.lists[form.season];
      && |l| == |c.lists[form.season]|
      && l[i] == BuildDrama(form, freshId) && l[i].id == form.id
      && forall j :: 0 <= j < |l| && j != i ==> l[j] == c.lists[form.season][j]
  {
  }

  /** The saved record is stored in the list its own season field names. */
  lemma SavedRecordSitsUnderItsSeason(c: Catalog, form: Form, freshId: string)
    requires form.season in c.lists
    ensures var r := SaveDrama(c, form, freshId).value;
      && BuildDrama(form, freshId) in r.lists[BuildDrama(form, freshId).season]
  {
    var d := BuildDrama(form, freshId);
    var l := SaveDrama(c, form, freshId).value.lists[form.season];
    if FirstIndex(c.lists[form.season], d.id).Some? {
      assert l[FirstIndex(c.lists[form.season], d.id).value] == d;
    } else {
      assert l[|l| - 1] == d;
    }
  }

  /** The delete loop stops at the first match: an entry with the same id
      later in catalog order (such as the copy a season change leaves behind)
      survives the delete. */
  lemma DeleteKeepsLaterDuplicate(c: Catalog, id: string, i: nat, j: nat)
    requires Distinct(c.order)
    requires FirstIndex(Flatten(c), id) == Some(i)
    requires i < j < |Flatten(c)| && Flatten(c)[j].id == id
    ensures |Flatten(DeleteDrama(c, id, true))| + 1 == |Flatten(c)|
    ensures Flatten(DeleteDrama(c, id, true))[j - 1] == Flatten(c)[j]
  {
    DeleteRemovesFirstMatch(c, id);
    RemoveFirstAtFirstIndex(Flatten(c), id);
  }
}

=== FILE: records.dfy ===
/**
  The catalog value: drama records grouped by season key, with the key order
  a JavaScript object keeps (the order `for..in`, `Object.keys` and
  `Object.values` visit the seasons in).
 */
module Records {

  /** The three download links of a drama, keyed by storage provider. */
  datatype Links = Links(baidu: string, ali: string, quark: string)

  /** One drama entry as stored in the catalog. */
  datatype Drama = Drama(
    id: string,
    title: string,
    originalTitle: string,
    season: string,
    year: string,
    day: string,
    genre: seq<string>,
    rating: real,
    poster: string,
    desc: string,
    director: string,
    screenwriter: string,
    cast: seq<string>,
    broadcast: string,
    links: Links)

  /** The season object: `lists` maps each season key to its ordered list of
      dramas, and `order` is the order the object enumerates its keys in. */
  datatype Catalog = Catalog(order: seq<string>, lists: map<string, seq<Drama>>)

  /** No element is listed twice. */
  predicate Distinct<T(==)>(s: seq<T>) {
    forall i, j :: 0 <= i < j < |s| ==> s[i] != s[j]
  }

  /** The key order enumerates every key of the map exactly once, as an
      object's own keys do. */
  ghost predicate WellFormed(c: Catalog) {
    && Distinct(c.order)
    && (forall k :: k in c.lists <==> k in c.order)
  }

  /** The list stored under `k`, or the empty list when `k` is not a key
      (`dramas[k] || []`). */
  function SeasonOf(lists: map<string, seq<Drama>>, k: string): seq<Drama> {
    if k in lists then lists[k] else []
  }

  /** The lists stored under `keys`, concatenated in that order. */
  function FlattenKeys(lists: map<string, seq<Drama>>, keys: seq<string>): seq<Drama>
    decreases |keys|
  {
    if |keys| == 0 then [] else SeasonOf(lists, keys[0]) + FlattenKeys(lists, keys[1..])
  }

  /** Every drama of the catalog, season by season in key order and front to
      back within a season: the order every scan of the source visits them. */
  function Flatten(c: Catalog): seq<Drama> {
    FlattenKeys(c.lists, c.order)
  }

  /** Flattening one more key appends that key's list. */
  lemma {:induction false} FlattenKeysSnoc(lists: map<string, seq<Drama>>, keys: seq<string>, k: string)
    ensures FlattenKeys(lists, keys + [k]) == FlattenKeys(lists, keys) + SeasonOf(lists, k)
    decreases |keys|
  {
    if |keys| == 0 {
      assert [] + [k] == [k];
      assert [k][1..] == [];
    } else {
      assert (keys + [k])[1..] == keys[1..] + [k];
      FlattenKeysSnoc(lists, keys[1..], k);
    }
  }

  /** A drama is in the flattened catalog exactly when some listed key holds it. */
  lemma {:induction false} FlattenKeysMember(lists: map<string, seq<Drama>>, keys: seq<string>, d: Drama)
    ensures d in FlattenKeys(lists, keys) <==> exists k :: k in keys && k in lists && d in lists[k]
    decreases |keys|
  {
    if |keys| > 0 {
      FlattenKeysMember(lists, keys[1..], d);
      if d in FlattenKeys(lists, keys[1..]) {
        var k :| k in keys[1..] && k in lists && d in lists[k];
        assert k in keys;
      }
      if k :| k in keys && k in lists && d in lists[k] {
        if k != keys[0] {
          assert k in keys[1..];
        }
      }
    }
  }

  /** Changing the list of a key that is not enumerated leaves the flattening alone. */
  lemma {:induction false} FlattenKeysUpdateOther(lists: map<string, seq<Drama>>, keys: seq<string>, k: string, l: seq<Drama>)
    requires k !in keys
    ensures FlattenKeys(lists[k := l], keys) == FlattenKeys(lists, keys)
    decreases |keys|
  {
    if |keys| > 0 {
      FlattenKeysUpdateOther(lists, keys[1..], k, l);
    }
  }

  /** Replacing the list of an enumerated key changes the number of flattened
      dramas by the difference in that list's length. */
  lemma {:induction false} FlattenKeysUpdateLength(lists: map<string, seq<Drama>>, keys: seq<string>, k: string, l: seq<Drama>)
    requires Distinct(keys) && k in keys && k in lists
    ensures |FlattenKeys(lists[k := l], keys)| + |lists[k]| == |FlattenKeys(lists, keys)| + |l|
    decreases |keys|
  {
    if keys[0] == k {
      assert k !in keys[1..] by {
        forall j | 0 <= j < |keys[1..]| ensures keys[1..][j] != k {
          assert keys[1..][j] == keys[j + 1];
        }
      }
      FlattenKeysUpdateOther(lists, keys[1..], k, l);
    } else {
      assert k in keys[1..];
      FlattenKeysUpdateLength(lists, keys[1..], k, l);
    }
  }

  /** Every drama sits in the list of the season it names: the invariant that
      the season field and the containing key agree. */
  ghost predicate WellSeasoned(c: Catalog) {
    forall k, d :: k in c.lists && d in c.lists[k] ==> d.season == k
  }

  /** `id` occurs nowhere in the catalog. */
  ghost predicate Absent(c: Catalog, id: string) {
    forall k, i :: k in c.lists && 0 <= i < |c.lists[k]| ==> c.lists[k][i].id != id
  }

  /** `id` occurs in none of the lists enumerated by `keys`. */
  ghost predicate AbsentFrom(lists: map<string, seq<Drama>>, keys: seq<string>, id: string) {
    forall k, i :: k in keys && k in lists && 0 <= i < |lists[k]| ==> lists[k][i].id != id
  }

  /** In a well-formed catalog, a scan over the key order sees every list. */
  lemma AbsentFromAll(c: Catalog, id: string)
    requires WellFormed(c)
    ensures AbsentFrom(c.lists, c.order, id) <==> Absent(c, id)
  {
  }

  /** No two slots of the catalog, in the same season or in different ones,
      hold the same id. */
  ghost predicate UniqueIds(c: Catalog) {
    forall k1, i1, k2, i2 ::
      && k1 in c.lists && 0 <= i1 < |c.lists[k1]|
      && k2 in c.lists && 0 <= i2 < |c.lists[k2]|
      && c.lists[k1][i1].id == c.lists[k2][i2].id
      ==> k1 == k2 && i1 == i2
  }

  /** The four season keys the pages use. */
  const Winter: string := "winter"
  const Spring: string := "spring"
  const Summer: string := "summer"
  const Autumn: string := "autumn"
}

=== FILE: store.dfy ===
/**
  The catalog mutations and lookups of the drama manager: finding an entry by
  id, the upsert behind the edit form, deleting the first match, and the
  built-in sample catalog used when nothing is stored yet.
 */
module Store {
  import opened Wrappers
  import opened Text
  import opened Records

  // ---------------------------------------------------------------------------
  // Scans within one season list
  // ---------------------------------------------------------------------------

  /** `list.findIndex(d => d.id === id)`: the first slot holding `id`, or
      nothing when no slot does. */
  function FirstIndex(list: seq<Drama>, id: string): (r: Option<nat>)
    ensures r.Some? ==> r.value < |list| && list[r.value].id == id
    ensures r.Some? ==> forall j :: 0 <= j < r.value ==> list[j].id != id
    ensures r.None? <==> forall j :: 0 <= j < |list| ==> list[j].id != id
    decreases |list|
  {
    if |list| == 0 then None
    else if list[0].id == id then Some(0)
    else
      match FirstIndex(list[1..], id)
      case None => None
      case Some(i) => Some(i + 1)
  }

  /** `list.find(d => d.id === id)`: the drama in the slot `findIndex` reports. */
  function FirstWithId(list: seq<Drama>, id: string): (r: Option<Drama>)
    ensures r.Some? <==> FirstIndex(list, id).Some?
    ensures r.Some? ==> r.value == list[FirstIndex(list, id).value]
    decreases |list|
  {
    if |list| == 0 then None
    else if list[0].id == id then Some(list[0])
    else FirstWithId(list[1..], id)
  }

  /** Searching a concatenation searches the front part first. */
  lemma {:induction false} FirstWithIdAppend(a: seq<Drama>, b: seq<Drama>, id: string)
    ensures FirstWithId(a + b, id) == if FirstWithId(a, id).Some? then FirstWithId(a, id) else FirstWithId(b, id)
    decreases |a|
  {
    if |a| > 0 {
      assert (a + b)[0] == a[0];
      assert (a + b)[1..] == a[1..] + b;
      FirstWithIdAppend(a[1..], b, id);
    } else {
      assert a + b == b;
    }
  }

  // ---------------------------------------------------------------------------
  // findDramaById
  // ---------------------------------------------------------------------------

  /** The season-by-season scan of `findDramaById` over `keys`. */
  function FindIn(lists: map<string, seq<Drama>>, keys: seq<string>, id: string): (r: Option<Drama>)
    ensures r.Some? ==> r.value.id == id && exists k :: k in keys && k in lists && r.value in lists[k]
    ensures r.None? <==> AbsentFrom(lists, keys, id)
    decreases |keys|
  {
    if |keys| == 0 then None
    else
      match FirstWithId(SeasonOf(lists, keys[0]), id)
      case Some(d) => Some(d)
      case None => FindIn(lists, keys[1..], id)
  }

  /** `findDramaById`: some drama with the id from some season, or nothing
      exactly when no enumerated season holds the id. */
  function FindDramaById(c: Catalog, id: string): (r: Option<Drama>)
    ensures r.Some? ==> r.value.id == id && exists k :: k in c.order && k in c.lists && r.value in c.lists[k]
    ensures r.None? <==> AbsentFrom(c.lists, c.order, id)
  {
    FindIn(c.lists, c.order, id)
  }

  /** The drama found is the first one with the id in catalog order: seasons in
      key order, each list front to back. */
  lemma {:induction false} FindInIsFirst(lists: map<string, seq<Drama>>, keys: seq<string>, id: string)
    ensures FindIn(lists, keys, id) == FirstWithId(FlattenKeys(lists, keys), id)
    decreases |keys|
  {
    if |keys| > 0 {
      FirstWithIdAppend(SeasonOf(lists, keys[0]), FlattenKeys(lists, keys[1..]), id);
      FindInIsFirst(lists, keys[1..], id);
    }
  }

  /** `findDramaById` returns the first match of the flattened catalog. */
  lemma FindIsFirstInCatalogOrder(c: Catalog, id: string)
    ensures FindDramaById(c, id) == FirstWithId(Flatten(c), id)
  {
    FindInIsFirst(c.lists, c.order, id);
  }

  // ---------------------------------------------------------------------------
  // The slot a deletion removes
  // ---------------------------------------------------------------------------

  /** A position in the catalog: a season key and an index in its list. */
  datatype Slot = Slot(season: string, index: nat)

  /** The `for (season in dramas) { findIndex ... }` scan of `deleteDrama`:
      the first season, in key order, whose list holds `id`, and the first
      index in it. */
  function LocateIn(lists: map<string, seq<Drama>>, keys: seq<string>, id: string): (r: Option<Slot>)
    ensures r.Some? ==> r.value.season in keys && r.value.season in lists
    ensures r.Some? ==> FirstIndex(lists[r.value.season], id) == Some(r.value.index)
    ensures r.None? <==> AbsentFrom(lists, keys, id)
    decreases |keys|
  {
    if |keys| == 0 then None
    else
      match FirstIndex(SeasonOf(lists, keys[0]), id)
      case Some(i) => Some(Slot(keys[0], i))
      case None => LocateIn(lists, keys[1..], id)
  }

  /** The slot of the first drama with `id` in catalog order. */
  function Locate(c: Catalog, id: string): Option<Slot> {
    LocateIn(c.lists, c.order, id)
  }

  /** `findDramaById` and the scan of `deleteDrama` agree: the drama found is
      the one in the slot a deletion removes. */
  lemma {:induction false} FindAgreesWithLocate(lists: map<string, seq<Drama>>, keys: seq<string>, id: string)
    ensures match LocateIn(lists, keys, id)
            case None => FindIn(lists, keys, id).None?
            case Some(s) => FindIn(lists, keys, id) == Some(lists[s.season][s.index])
    decreases |keys|
  {
    if |keys| > 0 {
      FindAgreesWithLocate(lists, keys[1..], id);
    }
  }

  // ---------------------------------------------------------------------------
  // deleteDrama
  // ---------------------------------------------------------------------------

  /** `list.splice(i, 1)`: the list without slot `i`, the rest shifted down. */
  function RemoveAt(list: seq<Drama>, i: nat): (r: seq<Drama>)
    requires i < |list|
    ensures |r| + 1 == |list|
    ensures forall j :: 0 <= j < i ==> r[j] == list[j]
    ensures forall j :: i <= j < |r| ==> r[j] == list[j + 1]
  {
    list[..i] + list[i + 1..]
  }

  /** `deleteDrama`: when the user confirms, removes the first drama with the
      id, in the first season holding it, and stops; otherwise, or when no
      season holds the id, the catalog is unchanged. */
  function DeleteDrama(c: Catalog, id: string, confirmed: bool): (r: Catalog)
    ensures r.order == c.order && r.lists.Keys == c.lists.Keys
    ensures !confirmed || AbsentFrom(c.lists, c.order, id) ==> r == c
    ensures confirmed && !AbsentFrom(c.lists, c.order, id) ==>
      exists k :: k in c.lists && |r.lists[k]| + 1 == |c.lists[k]|
        && (forall k' :: k' in c.lists && k' != k ==> r.lists[k'] == c.lists[k'])
  {
    if !confirmed then c
    else
      match Locate(c, id)
      case None => c
      case Some(s) => RemoveSlot(c, s)
  }

  /** Removes the first drama with `id` from a flat list: the reference
      behaviour of deleting by id. */
  function RemoveFirst(list: seq<Drama>, id: string): (r: seq<Drama>)
    decreases |list|
  {
    if |list| == 0 then []
    else if list[0].id == id then list[1..]
    else [list[0]] + RemoveFirst(list[1..], id)
  }

  /** Splicing out a slot past the front keeps the front element in front. */
  lemma RemoveAtCons(list: seq<Drama>, i: nat)
    requires i + 1 < |list|
    ensures RemoveAt(list, i + 1) == [list[0]] + RemoveAt(list[1..], i)
  {
    var l := RemoveAt(list, i + 1);
    var r := [list[0]] + RemoveAt(list[1..], i);
    forall j | 0 <= j < |l| ensures l[j] == r[j] {
      if j > 0 {
        assert r[j] == RemoveAt(list[1..], i)[j - 1];
      }
    }
  }

  /** When the front element does not match, the first match is one slot
      further on than in the rest, and removing it keeps the front element. */
  lemma RemoveFirstStep(list: seq<Drama>, id: string)
    requires |list| > 0 && list[0].id != id
    ensures RemoveFirst(list, id) == [list[0]] + RemoveFirst(list[1..], id)
    ensures FirstIndex(list[1..], id).Some? ==> FirstIndex(list, id) == Some(FirstIndex(list[1..], id).value + 1)
  {
  }

  /** Removing the first match is splicing out the slot `findIndex` reports. */
  lemma {:induction false} RemoveFirstAtFirstIndex(list: seq<Drama>, id: string)
    requires FirstIndex(list, id).Some?
    ensures RemoveFirst(list, id) == RemoveAt(list, FirstIndex(list, id).value)
    decreases |list|
  {
    if list[0].id != id {
      RemoveFirstStep(list, id);
      RemoveFirstAtFirstIndex(list[1..], id);
      RemoveAtCons(list, FirstIndex(list[1..], id).value);
    } else {
      assert list[..0] + list[1..] == list[1..];
    }
  }

  /** Removing the first match from a concatenation whose front part holds
      the id only touches the front part. */
  lemma {:induction false} RemoveFirstAppend(a: seq<Drama>, b: seq<Drama>, id: string)
    ensures FirstIndex(a, id).Some? ==> RemoveFirst(a + b, id) == RemoveFirst(a, id) + b
    ensures FirstIndex(a, id).None? ==> RemoveFirst(a + b, id) == a + RemoveFirst(b, id)
    decreases |a|
  {
    if |a| == 0 {
      assert a + b == b;
    } else {
      var ab := a + b;
      assert ab[0] == a[0];
      assert ab[1..] == a[1..] + b;
      if a[0].id == id {
        assert RemoveFirst(ab, id) == a[1..] + b;
      } else {
        RemoveFirstAppend(a[1..], b, id);
        assert RemoveFirst(ab, id) == [a[0]] + RemoveFirst(a[1..] + b, id);
        if FirstIndex(a, id).Some? {
          assert [a[0]] + (RemoveFirst(a[1..], id) + b) == ([a[0]] + RemoveFirst(a[1..], id)) + b;
        } else {
          assert [a[0]] + (a[1..] + RemoveFirst(b, id)) == ([a[0]] + a[1..]) + RemoveFirst(b, id);
          assert [a[0]] + a[1..] == a;
        }
      }
    }
  }

  /** Deleting at the located slot, seen through the flattened catalog, is
      removing the first match (the keys must be distinct, as an object's are). */
  lemma {:induction false} DeleteInRemovesFirst(lists: map<string, seq<Drama>>, keys: seq<string>, id: string)
    requires Distinct(keys)
    requires LocateIn(lists, keys, id).Some?
    ensures var s := LocateIn(lists, keys, id).value;
      FlattenKeys(lists[s.season := RemoveAt(lists[s.season], s.index)], keys)
        == RemoveFirst(FlattenKeys(lists, keys), id)
    decreases |keys|
  {
    var s := LocateIn(lists, keys, id).value;
    var l := RemoveAt(lists[s.season], s.index);
    var head := SeasonOf(lists, keys[0]);
    assert Distinct(keys[1..]) by {
      forall i, j | 0 <= i < j < |keys[1..]| ensures keys[1..][i] != keys[1..][j] {
        assert keys[1..][i] == keys[i + 1] && keys[1..][j] == keys[j + 1];
      }
    }
    assert keys[0] !in keys[1..] by {
      forall j | 0 <= j < |keys[1..]| ensures keys[1..][j] != keys[0] {
        assert keys[1..][j] == keys[j + 1];
      }
    }
    RemoveFirstAppend(head, FlattenKeys(lists, keys[1..]), id);
    if FirstIndex(head, id).Some? {
      assert s.season == keys[0];
      FlattenKeysUpdateOther(lists, keys[1..], s.season, l);
      RemoveFirstAtFirstIndex(head, id);
    } else {
      DeleteInRemovesFirst(lists, keys[1..], id);
      assert s.season != keys[0];
      assert SeasonOf(lists[s.season := l], keys[0]) == head;
    }
  }

  /** A confirmed `deleteDrama` removes exactly the first drama with the id in
      catalog order and keeps every other drama in its place. */
  lemma DeleteRemovesFirstMatch(c: Catalog, id: string)
    requires Distinct(c.order)
    ensures Flatten(DeleteDrama(c, id, true)) == RemoveFirst(Flatten(c), id)
  {
    if Locate(c, id).Some? {
      DeleteInRemovesFirst(c.lists, c.order, id);
    } else {
      assert forall j :: 0 <= j < |Flatten(c)| ==> Flatten(c)[j].id != id by {
        forall j | 0 <= j < |Flatten(c)| ensures Flatten(c)[j].id != id {
          var d := Flatten(c)[j];
          FlattenKeysMember(c.lists, c.order, d);
          var k :| k in c.order && k in c.lists && d in c.lists[k];
          var i :| 0 <= i < |c.lists[k]| && c.lists[k][i] == d;
        }
      }
      RemoveFirstAbsent(Flatten(c), id);
    }
  }

  /** Removing an id that is not there changes nothing. */
  lemma {:induction false} RemoveFirstAbsent(list: seq<Drama>, id: string)
    requires forall j :: 0 <= j < |list| ==> list[j].id != id
    ensures RemoveFirst(list, id) == list
    decreases |list|
  {
    if |list| > 0 {
      RemoveFirstAbsent(list[1..], id);
    }
  }

  /** In a catalog whose ids are unique, a confirmed deletion leaves the id
      nowhere in the catalog. */
  lemma DeleteLeavesIdAbsent(c: Catalog, id: string)
    requires WellFormed(c) && UniqueIds(c)
    ensures Absent(DeleteDrama(c, id, true), id)
  {
    AbsentFromAll(c, id);
    match Locate(c, id)
    case None =>
    case Some(s) =>
      var r := DeleteDrama(c, id, true);
      var l := c.lists[s.season];
      forall k, i | k in r.lists && 0 <= i < |r.lists[k]| ensures r.lists[k][i].id != id {
        if k == s.season {
          if i < s.index {
            assert r.lists[k][i] == l[i];
          } else {
            assert r.lists[k][i] == l[i + 1];
          }
        } else {
          assert r.lists[k][i] == c.lists[k][i];
        }
      }
  }

  // ---------------------------------------------------------------------------
  // saveDrama
  // ---------------------------------------------------------------------------

  /** The edit form's fields as `FormData` reports them. `id` is the empty
      string when the form carries no id; `rating` is what `parseFloat` made of
      the rating field, with `None` standing for NaN. */
  datatype Form = Form(
    id: string,
    title: string,
    originalTitle: string,
    season: string,
    year: string,
    day: string,
    genre: seq<string>,
    rating: Option<real>,
    poster: string,
    desc: string,
    director: string,
    screenwriter: string,
    cast: string,
    broadcast: string,
    baidu: string,
    ali: string,
    quark: string)

  /** A piece of text with no white space at either end and no comma. */
  predicate CleanName(s: string) {
    && ',' !in s
    && (s == [] || (!IsSpace(s[0]) && !IsSpace(s[|s| - 1])))
  }

  /** A trimmed piece of a comma-free string is still comma-free. */
  lemma TrimKeepsCommaFree(s: string)
    requires ',' !in s
    ensures CleanName(Trim(s))
  {
    var r := Trim(s);
    var i :| PaddedAt(s, r, i);
  }

  /** `cast.split(',').map(s => s.trim())`: one name per comma-separated
      piece, so one more name than there are commas, each trimmed and
      comma-free. */
  function CastList(text: string): (r: seq<string>)
    ensures |r| == Count(text, ',') + 1
    ensures forall i :: 0 <= i < |r| ==> CleanName(r[i])
  {
    var parts := Split(text, ',');
    var r := seq(|parts|, i requires 0 <= i < |parts| => Trim(parts[i]));
    assert forall i :: 0 <= i < |r| ==> CleanName(r[i]) by {
      forall i | 0 <= i < |r| ensures CleanName(r[i]) {
        TrimKeepsCommaFree(parts[i]);
      }
    }
    r
  }

  /** Filling the cast box with `cast.join(', ')` and saving the form gives
      the cast back, for a non-empty cast of clean names. */
  lemma CastRoundTrip(cast: seq<string>)
    requires |cast| > 0
    requires forall i :: 0 <= i < |cast| ==> CleanName(cast[i])
    ensures CastList(Join(cast, ", ")) == cast
  {
    var text := Join(cast, ", ");
    var spaced := Spaced(cast);
    assert Split(text, ',') == spaced by {
      JoinSpaced(cast, spaced);
      SplitJoin(spaced, ',');
    }
    var r := CastList(text);
    forall i | 0 <= i < |cast| ensures r[i] == cast[i] {
      CastListPiece(text, i);
      TrimSpacedPiece(cast, i);
    }
  }

  /** Each cast name is the trimmed piece of the split. */
  lemma CastListPiece(text: string, i: nat)
    requires i < |Split(text, ',')|
    ensures CastList(text)[i] == Trim(Split(text, ',')[i])
  {
  }

  /** Trimming a piece of the spaced split gives the name back. */
  lemma TrimSpacedPiece(cast: seq<string>, i: nat)
    requires |cast| > 0 && i < |cast|
    requires forall i :: 0 <= i < |cast| ==> CleanName(cast[i])
    ensures Trim(Spaced(cast)[i]) == cast[i]
  {
    TrimOfTrimmed(cast[i]);
    if i > 0 {
      TrimLeadingSpace(' ', cast[i]);
    }
  }

  /** The pieces of `cast.join(', ')` as a split on ',' sees them: every name
      after the first keeps the space that followed the comma. */
  function Spaced(cast: seq<string>): (r: seq<string>)
    requires |cast| > 0
    requires forall i :: 0 <= i < |cast| ==> CleanName(cast[i])
    ensures |r| == |cast| && r[0] == cast[0]
    ensures forall i :: 0 < i < |cast| ==> r[i] == [' '] + cast[i]
    ensures forall i :: 0 <= i < |r| ==> ',' !in r[i]
  {
    var r := seq(|cast|, i requires 0 <= i < |cast| => if i == 0 then cast[0] else [' '] + cast[i]);
    assert forall i :: 0 <= i < |r| ==> ',' !in r[i] by {
      forall i | 0 <= i < |r| ensures ',' !in r[i] {
        assert CleanName(cast[i]);
        if i > 0 {
          assert r[i] == [' '] + cast[i];
          assert forall x :: x in r[i] ==> x == ' ' || x in cast[i];
        }
      }
    }
    r
  }

  /** Joining with ", " is joining with "," pieces that carry the space. */
  lemma JoinSpaced(cast: seq<string>, spaced: seq<string>)
    requires |cast| == |spaced| && |cast| > 0
    requires spaced[0] == cast[0]
    requires forall i :: 0 < i < |cast| ==> spaced[i] == [' '] + cast[i]
    ensures Join(cast, ", ") == Join(spaced, ",")
  {
    if |cast| > 1 {
      JoinShiftSpace(cast[1..], spaced[1..]);
      calc {
        Join(cast, ", ");
        cast[0] + (", " + Join(cast[1..], ", "));
        spaced[0] + ("," + Join(spaced[1..], ","));
        Join(spaced, ",");
      }
    }
  }

  /** `", " + join(a, ", ")` is `"," + join` of the same list with a space in
      front of every piece. */
  lemma {:induction false} JoinShiftSpace(a: seq<string>, b: seq<string>)
    requires |a| == |b| && |a| > 0
    requires forall i :: 0 <= i < |a| ==> b[i] == [' '] + a[i]
    ensures ", " + Join(a, ", ") == "," + Join(b, ",")
    decreases |a|
  {
    if |a| == 1 {
      assert ", " + a[0] == "," + ([' '] + a[0]);
    } else {
      JoinShiftSpace(a[1..], b[1..]);
      calc {
        ", " + Join(a, ", ");
        ", " + (a[0] + ", " + Join(a[1..], ", "));
        "," + ([' '] + a[0]) + (", " + Join(a[1..], ", "));
        "," + b[0] + ("," + Join(b[1..], ","));
        "," + Join(b, ",");
      }
    }
  }

  /** The empty cast does not survive an edit: joining it gives "" and
      splitting "" gives one empty name. */
  lemma EmptyCastBecomesOneBlankName()
    ensures CastList(Join([], ", ")) == [""]
  {
  }

  /** The record `saveDrama` builds from the form. */
  function BuildDrama(form: Form, freshId: string): (d: Drama)
    ensures form.id != "" ==> d.id == form.id
    ensures form.id == "" ==> d.id == freshId
    ensures d.season == form.season && d.genre == form.genre
    ensures d.rating == form.rating.GetOr(0.0)
    ensures d.cast == CastList(form.cast)
    ensures |d.cast| == Count(form.cast, ',') + 1
    ensures forall i :: 0 <= i < |d.cast| ==> CleanName(d.cast[i])
    ensures && d.title == form.title && d.originalTitle == form.originalTitle
            && d.year == form.year && d.day == form.day && d.poster == form.poster
            && d.desc == form.desc && d.director == form.director
            && d.screenwriter == form.screenwriter && d.broadcast == form.broadcast
    ensures d.links == Links(form.baidu, form.ali, form.quark)
  {
    Drama(
      id := if form.id != "" then form.id else freshId,
      title := form.title,
      originalTitle := form.originalTitle,
      season := form.season,
      year := form.year,
      day := form.day,
      genre := form.genre,
      rating := form.rating.GetOr(0.0),
      poster := form.poster,
      desc := form.desc,
      director := form.director,
      screenwriter := form.screenwriter,
      cast := CastList(form.cast),
      broadcast := form.broadcast,
      links := Links(form.baidu, form.ali, form.quark))
  }

  /** The upsert on one season list: replace the first drama with the same id
      in place, or append when there is none. */
  function Upsert(list: seq<Drama>, d: Drama): (r: seq<Drama>)
    ensures FirstIndex(list, d.id).Some? ==>
      var i := FirstIndex(list, d.id).value;
      |r| == |list| && r[i] == d && forall j :: 0 <= j < |list| && j != i ==> r[j] == list[j]
    ensures FirstIndex(list, d.id).None? ==> r == list + [d]
  {
    match FirstIndex(list, d.id)
    case Some(i) => list[i := d]
    case None => list + [d]
  }

  /** Why `saveDrama` can fail: `dramas[season]` is undefined for a season
      key the catalog does not have, and the `findIndex` call on it throws. */
  datatype SaveError = UnknownSeason(season: string)

  /** `saveDrama`: builds the record and upserts it into the list of the
      form's season only; every other season and the key order are untouched. */
  function SaveDrama(c: Catalog, form: Form, freshId: string): (r: Result<Catalog, SaveError>)
    ensures r.Failure? <==> form.season !in c.lists
    ensures r.Success? ==> r.value.order == c.order && r.value.lists.Keys == c.lists.Keys
    ensures r.Success? ==> forall k :: k in c.lists && k != form.season ==> r.value.lists[k] == c.lists[k]
    ensures r.Success? ==> r.value.lists[form.season] == Upsert(c.lists[form.season], BuildDrama(form, freshId))
  {
    var d := BuildDrama(form, freshId);
    if d.season !in c.lists then Failure(UnknownSeason(d.season))
    else
      var r := c.(lists := c.lists[d.season := Upsert(c.lists[d.season], d)]);
      assert r.lists.Keys == c.lists.Keys;
      Success(r)
  }

  /** The stored record always sits in the list its season field names, so a
      catalog whose entries agree with their keys keeps agreeing after a save. */
  lemma SaveKeepsSeasonsConsistent(c: Catalog, form: Form, freshId: string)
    requires WellSeasoned(c)
    requires SaveDrama(c, form, freshId).Success?
    ensures WellSeasoned(SaveDrama(c, form, freshId).value)
  {
    var r := SaveDrama(c, form, freshId).value;
    var d := BuildDrama(form, freshId);
    forall k, e | k in r.lists && e in r.lists[k] ensures e.season == k {
      if k == form.season {
        var j :| 0 <= j < |r.lists[k]| && r.lists[k][j] == e;
        if FirstIndex(c.lists[k], d.id).None? {
          if j < |c.lists[k]| {
            assert e in c.lists[k];
          }
        } else if j != FirstIndex(c.lists[k], d.id).value {
          assert e in c.lists[k];
        }
      } else {
        assert e in c.lists[k];
      }
    }
  }

  /** Creating an entry under an id that is nowhere in the catalog appends it
      to its season, makes it findable, and grows the catalog by one entry. */
  lemma SaveFreshAppends(c: Catalog, form: Form, freshId: string)
    requires WellFormed(c)
    requires form.id == "" && Absent(c, freshId) && form.season in c.lists
    ensures SaveDrama(c, form, freshId).Success?
    ensures var r := SaveDrama(c, form, freshId).value;
      && r.lists[form.season] == c.lists[form.season] + [BuildDrama(form, freshId)]
      && FindDramaById(r, freshId) == Some(BuildDrama(form, freshId))
      && |Flatten(r)| == |Flatten(c)| + 1
  {
    var d := BuildDrama(form, freshId);
    var k := form.season;
    var r := SaveDrama(c, form, freshId).value;
    assert FirstIndex(c.lists[k], freshId).None?;
    assert r == c.(lists := c.lists[k := Upsert(c.lists[k], d)]);
    UpsertIsFound(c, d);
    FlattenKeysUpdateLength(c.lists, c.order, k, r.lists[k]);
  }

  /** A catalog with unique ids keeps them unique when an entry is created
      under an id that is nowhere in it. */
  lemma SaveFreshKeepsIdsUnique(c: Catalog, form: Form, freshId: string)
    requires UniqueIds(c)
    requires form.id == "" && Absent(c, freshId) && form.season in c.lists
    ensures SaveDrama(c, form, freshId).Success?
    ensures UniqueIds(SaveDrama(c, form, freshId).value)
  {
    var d := BuildDrama(form, freshId);
    var k := form.season;
    assert SaveDrama(c, form, freshId).value == c.(lists := c.lists[k := Upsert(c.lists[k], d)]);
    UpsertKeepsUnique(c, d);
  }

  /** Changing an entry's season through the form leaves the old record in
      its old season: the id then appears twice and `findDramaById` keeps
      returning the stale copy. */
  lemma SeasonChangeDuplicates()
    ensures var stale := Drama("a", "t", "", Winter, "2025", "", [], 0.0, "", "", "", "", [""], "", Links("", "", ""));
      var c := Catalog([Winter, Spring], map[Winter := [stale], Spring := []]);
      var form := Form("a", "t", "", Spring, "2025", "", [], None, "", "", "", "", "", "", "", "", "");
      var r := SaveDrama(c, form, "fresh");
      && WellFormed(c) && UniqueIds(c) && WellSeasoned(c)
      && r.Success?
      && r.value.lists[Winter] == [stale]
      && r.value.lists[Spring] == [BuildDrama(form, "fresh")]
      && !UniqueIds(r.value)
      && FindDramaById(r.value, "a") == Some(stale)
  {
    var stale := Drama("a", "t", "", Winter, "2025", "", [], 0.0, "", "", "", "", [""], "", Links("", "", ""));
    var c := Catalog([Winter, Spring], map[Winter := [stale], Spring := []]);
    var form := Form("a", "t", "", Spring, "2025", "", [], None, "", "", "", "", "", "", "", "", "");
    var r := SaveDrama(c, form, "fresh").value;
    assert r.lists[Spring][0].id == "a" == r.lists[Winter][0].id;
  }

  /** Deleting the drama in slot `s`. */
  function RemoveSlot(c: Catalog, s: Slot): (r: Catalog)
    requires s.season in c.lists && s.index < |c.lists[s.season]|
    ensures r.order == c.order && r.lists.Keys == c.lists.Keys
  {
    var r := c.(lists := c.lists[s.season := RemoveAt(c.lists[s.season], s.index)]);
    assert r.lists.Keys == c.lists.Keys;
    r
  }

  /** Where slot `(k, i)` of the catalog after removing slot `s` came from. */
  function Before(s: Slot, k: string, i: nat): nat {
    if k == s.season && i >= s.index then i + 1 else i
  }

  /** After removing slot `s`, every slot holds what its origin held. */
  lemma RemoveSlotOrigin(c: Catalog, s: Slot, k: string, i: nat)
    requires s.season in c.lists && s.index < |c.lists[s.season]|
    requires k in c.lists && i < |RemoveSlot(c, s).lists[k]|
    ensures Before(s, k, i) < |c.lists[k]|
    ensures RemoveSlot(c, s).lists[k][i] == c.lists[k][Before(s, k, i)]
    ensures k == s.season ==> Before(s, k, i) != s.index
  {
  }

  /** Removing a slot keeps the invariants, and when ids were unique the
      removed id is then nowhere in the catalog. */
  lemma RemoveSlotKeepsInvariants(c: Catalog, s: Slot)
    requires s.season in c.lists && s.index < |c.lists[s.season]|
    requires UniqueIds(c) && WellSeasoned(c)
    ensures var r := RemoveSlot(c, s);
      && UniqueIds(r) && WellSeasoned(r) && Absent(r, c.lists[s.season][s.index].id)
  {
    var r := RemoveSlot(c, s);
    forall k1, i1, k2, i2 |
      && k1 in r.lists && 0 <= i1 < |r.lists[k1]|
      && k2 in r.lists && 0 <= i2 < |r.lists[k2]|
      && r.lists[k1][i1].id == r.lists[k2][i2].id
      ensures k1 == k2 && i1 == i2
    {
      RemoveSlotOrigin(c, s, k1, i1);
      RemoveSlotOrigin(c, s, k2, i2);
    }
    forall k, e | k in r.lists && e in r.lists[k] ensures e.season == k {
      var i :| 0 <= i < |r.lists[k]| && r.lists[k][i] == e;
      RemoveSlotOrigin(c, s, k, i);
      assert e in c.lists[k];
    }
    forall k, i | k in r.lists && 0 <= i < |r.lists[k]| ensures r.lists[k][i].id != c.lists[s.season][s.index].id {
      RemoveSlotOrigin(c, s, k, i);
    }
  }

  /** The first step of the corrected save: drop a copy of the record that
      sits under a season other than its new one. */
  function DropFromOtherSeason(c: Catalog, d: Drama): (r: Catalog)
    ensures r.order == c.order && r.lists.Keys == c.lists.Keys
  {
    match Locate(c, d.id)
    case Some(s) => if s.season != d.season then RemoveSlot(c, s) else c
    case None => c
  }

  /** After the first step the id can only be in the record's own season, and
      the invariants still hold. */
  lemma DropKeepsInvariants(c: Catalog, d: Drama)
    requires WellFormed(c) && UniqueIds(c) && WellSeasoned(c)
    ensures var c1 := DropFromOtherSeason(c, d);
      && WellFormed(c1) && UniqueIds(c1) && WellSeasoned(c1)
      && forall k', i :: k' in c1.lists && k' != d.season && 0 <= i < |c1.lists[k']| ==> c1.lists[k'][i].id != d.id
  {
    AbsentFromAll(c, d.id);
    match Locate(c, d.id)
    case None =>
    case Some(s) =>
      if s.season != d.season {
        RemoveSlotKeepsInvariants(c, s);
      } else {
        forall k', i | k' in c.lists && k' != d.season && 0 <= i < |c.lists[k']|
          ensures c.lists[k'][i].id != d.id
        {
          assert c.lists[s.season][s.index].id == d.id;
        }
      }
  }

  /** The save with the season change treated as a move: a record already
      stored under another season is first removed there, then the record is
      upserted into its new season. */
  function SaveDramaMoving(c: Catalog, form: Form, freshId: string): (r: Result<Catalog, SaveError>)
    ensures r.Failure? <==> form.season !in c.lists
    ensures r.Success? ==> r.value.order == c.order && r.value.lists.Keys == c.lists.Keys
  {
    var d := BuildDrama(form, freshId);
    if d.season !in c.lists then Failure(UnknownSeason(d.season))
    else
      var c1 := DropFromOtherSeason(c, d);
      var r := c1.(lists := c1.lists[d.season := Upsert(c1.lists[d.season], d)]);
      assert r.lists.Keys == c.lists.Keys;
      Success(r)
  }

  /** With the season change treated as a move, a save keeps every id unique
      and every entry in the list of its season, and the saved record is the
      one `findDramaById` returns. */
  lemma SaveMovingKeepsIdsUnique(c: Catalog, form: Form, freshId: string)
    requires WellFormed(c) && UniqueIds(c) && WellSeasoned(c)
    requires form.season in c.lists
    ensures SaveDramaMoving(c, form, freshId).Success?
    ensures var r := SaveDramaMoving(c, form, freshId).value;
      && UniqueIds(r) && WellSeasoned(r)
      && FindDramaById(r, BuildDrama(form, freshId).id) == Some(BuildDrama(form, freshId))
  {
    var d := BuildDrama(form, freshId);
    var c1 := DropFromOtherSeason(c, d);
    DropKeepsInvariants(c, d);
    UpsertKeepsUnique(c1, d);
    UpsertKeepsSeasoned(c1, d);
    UpsertIsFound(c1, d);
  }

  /** `id` occurs in no season other than `k`. */
  ghost predicate OnlyIn(c: Catalog, k: string, id: string) {
    forall k', i :: k' in c.lists && k' != k && 0 <= i < |c.lists[k']| ==> c.lists[k'][i].id != id
  }

  /** The slot the upsert writes `d` to: where its id was first found in the
      list, or the new last slot. */
  function UpsertSlot(l: seq<Drama>, d: Drama): (p: nat)
    ensures p <= |l| && p < |Upsert(l, d)| && Upsert(l, d)[p] == d
    ensures forall j :: 0 <= j < |Upsert(l, d)| && j != p ==> j < |l| && Upsert(l, d)[j] == l[j]
  {
    if FirstIndex(l, d.id).Some? then FirstIndex(l, d.id).value else |l|
  }

  /** The upsert keeps ids unique as long as the id is in no other season. */
  lemma UpsertKeepsUnique(c: Catalog, d: Drama)
    requires UniqueIds(c) && d.season in c.lists && OnlyIn(c, d.season, d.id)
    ensures UniqueIds(c.(lists := c.lists[d.season := Upsert(c.lists[d.season], d)]))
  {
    var k := d.season;
    var l := c.lists[k];
    var r := c.(lists := c.lists[k := Upsert(l, d)]);
    var p := UpsertSlot(l, d);
    forall k', i | k' in r.lists && 0 <= i < |r.lists[k']| && r.lists[k'][i].id == d.id
      ensures k' == k && i == p
    {
    }
    forall k1, i1, k2, i2 |
      && k1 in r.lists && 0 <= i1 < |r.lists[k1]|
      && k2 in r.lists && 0 <= i2 < |r.lists[k2]|
      && r.lists[k1][i1].id == r.lists[k2][i2].id
      ensures k1 == k2 && i1 == i2
    {
      if r.lists[k1][i1].id != d.id {
        assert r.lists[k1][i1] == c.lists[k1][i1];
        assert r.lists[k2][i2] == c.lists[k2][i2];
      }
    }
  }

  /** The upsert keeps every entry under its own season. */
  lemma UpsertKeepsSeasoned(c: Catalog, d: Drama)
    requires WellSeasoned(c) && d.season in c.lists
    ensures WellSeasoned(c.(lists := c.lists[d.season := Upsert(c.lists[d.season], d)]))
  {
    var k := d.season;
    var l := c.lists[k];
    var r := c.(lists := c.lists[k := Upsert(l, d)]);
    var p := UpsertSlot(l, d);
    forall k', e | k' in r.lists && e in r.lists[k'] ensures e.season == k' {
      var i :| 0 <= i < |r.lists[k']| && r.lists[k'][i] == e;
      if !(k' == k && i == p) {
        assert e == c.lists[k'][i];
      }
    }
  }

  /** With the id in no other season, the upserted record is the one
      `findDramaById` returns. */
  lemma UpsertIsFound(c: Catalog, d: Drama)
    requires WellFormed(c) && d.season in c.lists && OnlyIn(c, d.season, d.id)
    ensures FindDramaById(c.(lists := c.lists[d.season := Upsert(c.lists[d.season], d)]), d.id) == Some(d)
  {
    var k := d.season;
    var l := c.lists[k];
    var r := c.(lists := c.lists[k := Upsert(l, d)]);
    var p := UpsertSlot(l, d);
    assert FirstIndex(r.lists[k], d.id) == Some(p) by {
      forall j | 0 <= j < p ensures r.lists[k][j].id != d.id {
        assert r.lists[k][j] == l[j];
      }
    }
    assert r.lists[k][p] == d;
    assert !AbsentFrom(r.lists, r.order, d.id);
    var slot := LocateIn(r.lists, r.order, d.id).value;
    assert slot.season == k;
    FindAgreesWithLocate(r.lists, r.order, d.id);
  }

  // ---------------------------------------------------------------------------
  // loadDramas
  // ---------------------------------------------------------------------------

  /** The first sample entry of the built-in catalog. */
  function SilentLove(id: string): Drama {
    Drama(
      id := id,
      title := "silent love -无声的爱-",
      originalTitle := "サイレントラブ",
      season := Autumn,
      year := "2025",
      day := "月曜",
      genre := ["爱情", "剧情"],
      rating := 8.7,
      poster := "https://via.placeholder.com/300x450/667eea/ffffff?text=Silent+Love",
      desc := "讲述一名听力障碍女孩与普通男孩之间跨越障碍的纯爱故事。",
      director := "山田洋次",
      screenwriter := "坂元裕二",
      cast := ["佐藤健", "石原里美", "菅田将晖"],
      broadcast := "TBS电视台 每周一22:00",
      links := Links(
        "https://pan.baidu.com/s/1example1",
        "https://www.aliyundrive.com/s/example1",
        "https://pan.quark.cn/s/example1"))
  }

  /** The second sample entry of the built-in catalog. */
  function Aibou(id: string): Drama {
    Drama(
      id := id,
      title := "相棒 第24季",
      originalTitle := "相棒 season24",
      season := Autumn,
      year := "2025",
      day := "水曜",
      genre := ["悬疑", "刑侦"],
      rating := 8.9,
      poster := "https://via.placeholder.com/300x450/764ba2/ffffff?text=相棒24",
      desc := "警视厅特命系搭档右京和亘继续解决各种疑难案件，本季将面对更加复杂的犯罪网络。",
      director := "和泉圣治",
      screenwriter := "輿水泰弘",
      cast := ["水谷丰", "反町隆史", "川原和久", "山中崇史"],
      broadcast := "朝日电视台 每周三21:00",
      links := Links(
        "https://pan.baidu.com/s/1example2",
        "https://www.aliyundrive.com/s/example2",
        "https://pan.quark.cn/s/example2"))
  }

  /** `loadDramas`: the stored catalog when storage holds one; otherwise the
      built-in catalog, whose keys are enumerated autumn, winter, spring,
      summer, with two sample entries under autumn and the other seasons empty.
      `id1` and `id2` are what the id generator returned for the samples. */
  function LoadDramas(saved: Option<Catalog>, id1: string, id2: string): (r: Catalog)
    ensures saved.Some? ==> r == saved.value
    ensures saved.None? ==>
      && r.order == [Autumn, Winter, Spring, Summer]
      && r.lists.Keys == {Autumn, Winter, Spring, Summer}
      && |r.lists[Autumn]| == 2
      && r.lists[Winter] == [] && r.lists[Spring] == [] && r.lists[Summer] == []
  {
    match saved
    case Some(c) => c
    case None =>
      Catalog(
        [Autumn, Winter, Spring, Summer],
        map[Autumn := [SilentLove(id1), Aibou(id2)], Winter := [], Spring := [], Summer := []])
  }

  /** The built-in catalog satisfies the catalog invariants: every key
      enumerated once, every sample under its own season, and distinct ids when
      the generator returned distinct ids. */
  lemma SeedIsConsistent(id1: string, id2: string)
    ensures var r := LoadDramas(None, id1, id2);
      && WellFormed(r) && WellSeasoned(r)
      && (id1 != id2 ==> UniqueIds(r))
  {
    SeedWellFormed(id1, id2);
    SeedWellSeasoned(id1, id2);
    if id1 != id2 {
      SeedUniqueIds(id1, id2);
    }
  }

  /** The four season keys are distinct, so the built-in key order lists each
      key of the built-in catalog once. */
  lemma SeedWellFormed(id1: string, id2: string)
    ensures WellFormed(LoadDramas(None, id1, id2))
  {
    var r := LoadDramas(None, id1, id2);
    assert Autumn[0] == 'a' && Winter[0] == 'w' && Spring[1] == 'p' && Summer[1] == 'u';
    assert Spring[0] == 's' && Summer[0] == 's';
    assert Distinct(r.order) by {
      assert r.order == [Autumn, Winter, Spring, Summer];
    }
    assert forall k :: k in r.lists <==> k in r.order by {
      assert r.lists.Keys == {Autumn, Winter, Spring, Summer};
    }
  }

  /** Both samples are autumn dramas stored under autumn. */
  lemma SeedWellSeasoned(id1: string, id2: string)
    ensures WellSeasoned(LoadDramas(None, id1, id2))
  {
    var r := LoadDramas(None, id1, id2);
    var a, b := SilentLove(id1), Aibou(id2);
    assert a.season == Autumn && b.season == Autumn;
    assert r.lists[Autumn] == [a, b];
    forall k, d | k in r.lists && d in r.lists[k] ensures d.season == k {
      assert k == Autumn;
      assert d == a || d == b;
    }
  }

  /** Distinct generated ids give the two samples distinct ids. */
  lemma SeedUniqueIds(id1: string, id2: string)
    requires id1 != id2
    ensures UniqueIds(LoadDramas(None, id1, id2))
  {
    var r := LoadDramas(None, id1, id2);
    var a, b := SilentLove(id1), Aibou(id2);
    assert a.id == id1 && b.id == id2;
    assert r.lists[Autumn] == [a, b];
    forall k1, i1, k2, i2 |
      && k1 in r.lists && 0 <= i1 < |r.lists[k1]|
      && k2 in r.lists && 0 <= i2 < |r.lists[k2]|
      && r.lists[k1][i1].id == r.lists[k2][i2].id
      ensures k1 == k2 && i1 == i2
    {
      assert k1 == Autumn && k2 == Autumn;
    }
  }
}

=== FILE: text.dfy ===
/**
  The host string primitives the catalog code relies on: `trim`, `split(',')`,
  `join`, `toLowerCase` and `includes`, over `string` (a sequence of code points).
 */
module Text {

  /** The code points JavaScript's `String.prototype.trim` strips: the
      WhiteSpace and LineTerminator productions (tab, vertical tab, form feed,
      space, no-break space, the byte-order mark, every space separator, line
      feed, carriage return, line and paragraph separators). */
  predicate IsSpace(c: char) {
    || c == '\t' || c == '\n' || c == '\U{000B}' || c == '\U{000C}' || c == '\r'
    || c == ' ' || c == '\U{00A0}' || c == '\U{1680}'
    || ('\U{2000}' <= c <= '\U{200A}')
    || c == '\U{2028}' || c == '\U{2029}' || c == '\U{202F}' || c == '\U{205F}'
    || c == '\U{3000}' || c == '\U{FEFF}'
  }

  /** Leading white space removed: `r` is the longest suffix of `s` that does
      not start with white space. */
  function TrimStart(s: string): (r: string)
    ensures |r| <= |s| && r == s[|s| - |r|..]
    ensures forall i :: 0 <= i < |s| - |r| ==> IsSpace(s[i])
    ensures r == [] || !IsSpace(r[0])
  {
    if |s| > 0 && IsSpace(s[0]) then
      var r := TrimStart(s[1..]);
      assert forall i :: 1 <= i < |s| - |r| ==> s[i] == s[1..][i - 1];
      assert s[1..][|s| - 1 - |r|..] == s[|s| - |r|..];
      r
    else s
  }

  /** Trailing white space removed: `r` is the longest prefix of `s` that does
      not end with white space. */
  function TrimEnd(s: string): (r: string)
    ensures |r| <= |s| && r == s[..|r|]
    ensures forall i :: |r| <= i < |s| ==> IsSpace(s[i])
    ensures r == [] || !IsSpace(r[|r| - 1])
  {
    if |s| > 0 && IsSpace(s[|s| - 1]) then
      var r := TrimEnd(s[..|s| - 1]);
      assert forall i :: |r| <= i < |s| - 1 ==> s[i] == s[..|s| - 1][i];
      assert s[..|s| - 1][..|r|] == s[..|r|];
      r
    else s
  }

  /** `t` occurs in `s` at offset `i`. */
  ghost predicate OccursAt(s: string, t: string, i: int) {
    0 <= i && i + |t| <= |s| && s[i..i + |t|] == t
  }

  /** `r` is the slice of `s` at offset `i`, and everything of `s` outside it
      is white space. */
  ghost predicate PaddedAt(s: string, r: string, i: int) {
    && OccursAt(s, r, i)
    && (forall k :: 0 <= k < i ==> IsSpace(s[k]))
    && (forall k :: i + |r| <= k < |s| ==> IsSpace(s[k]))
  }

  /** `String.prototype.trim`: the slice of `s` left once the white space at
      both ends is gone. */
  function Trim(s: string): (r: string)
    ensures exists i :: PaddedAt(s, r, i)
    ensures r == [] || (!IsSpace(r[0]) && !IsSpace(r[|r| - 1]))
  {
    var t := TrimStart(s);
    var r := TrimEnd(t);
    assert PaddedAt(s, r, |s| - |t|);
    r
  }

  /** A string with no white space at either end is its own trim. */
  lemma TrimOfTrimmed(s: string)
    requires s == [] || (!IsSpace(s[0]) && !IsSpace(s[|s| - 1]))
    ensures Trim(s) == s
  {
  }

  /** Trimming twice is trimming once. */
  lemma TrimIdempotent(s: string)
    ensures Trim(Trim(s)) == Trim(s)
  {
    TrimOfTrimmed(Trim(s));
  }

  /** Leading white space does not survive a trim. */
  lemma TrimLeadingSpace(c: char, s: string)
    requires IsSpace(c)
    ensures Trim([c] + s) == Trim(s)
  {
    assert ([c] + s)[1..] == s;
  }

  /** How many times `c` occurs in `s`. */
  function Count(s: string, c: char): nat
    decreases |s|
  {
    if |s| == 0 then 0 else (if s[0] == c then 1 else 0) + Count(s[1..], c)
  }

  /** `s.split(sep)` for a one-character separator: the pieces between
      consecutive separators, so always one more piece than separators, and no
      piece holds the separator. The empty string splits into one empty piece. */
  function Split(s: string, sep: char): (r: seq<string>)
    ensures |r| == Count(s, sep) + 1
    ensures forall i :: 0 <= i < |r| ==> sep !in r[i]
    decreases |s|
  {
    if |s| == 0 then [""]
    else
      var rest := Split(s[1..], sep);
      if s[0] == sep then [""] + rest
      else [[s[0]] + rest[0]] + rest[1..]
  }

  /** `parts.join(sep)`: the parts in order with `sep` between neighbours; the
      empty list joins to the empty string. */
  function Join(parts: seq<string>, sep: string): string {
    if |parts| == 0 then ""
    else if |parts| == 1 then parts[0]
    else parts[0] + sep + Join(parts[1..], sep)
  }

  /** Joining the pieces of a split with the same separator gives the
      original string back. */
  lemma {:induction false} JoinSplit(s: string, sep: char)
    ensures Join(Split(s, sep), [sep]) == s
    decreases |s|
  {
    if |s| > 0 {
      var rest := Split(s[1..], sep);
      JoinSplit(s[1..], sep);
      assert Join(rest, [sep]) == s[1..];
      if s[0] == sep {
        assert Join([""] + rest, [sep]) == "" + [sep] + Join(rest, [sep]);
      } else if |rest| == 1 {
        assert [[s[0]] + rest[0]] + rest[1..] == [[s[0]] + rest[0]];
      } else {
        var parts := [[s[0]] + rest[0]] + rest[1..];
        assert parts[1..] == rest[1..];
        assert Join(rest, [sep]) == rest[0] + [sep] + Join(rest[1..], [sep]);
        assert Join(parts, [sep]) == [s[0]] + rest[0] + [sep] + Join(rest[1..], [sep]);
      }
    }
  }

  /** A string without the separator splits into itself. */
  lemma {:induction false} SplitNoSeparator(s: string, sep: char)
    requires sep !in s
    ensures Split(s, sep) == [s]
    decreases |s|
  {
    if |s| > 0 {
      SplitNoSeparator(s[1..], sep);
      assert [s[0]] + s[1..] == s;
    }
  }

  /** Splitting `p + sep + t`, where `p` has no separator, yields `p` followed
      by the pieces of `t`. */
  lemma {:induction false} SplitAfterPiece(p: string, sep: char, t: string)
    requires sep !in p
    ensures Split(p + [sep] + t, sep) == [p] + Split(t, sep)
    decreases |p|
  {
    if |p| == 0 {
      assert "" + [sep] + t == [sep] + t;
      assert ([sep] + t)[1..] == t;
    } else {
      var s := p + [sep] + t;
      assert s[1..] == p[1..] + [sep] + t;
      SplitAfterPiece(p[1..], sep, t);
      assert [p[0]] + p[1..] == p;
    }
  }

  /** Splitting a join gives the parts back, as long as there is at least one
      part and no part holds the separator. */
  lemma {:induction false} SplitJoin(parts: seq<string>, sep: char)
    requires |parts| > 0
    requires forall i :: 0 <= i < |parts| ==> sep !in parts[i]
    ensures Split(Join(parts, [sep]), sep) == parts
    decreases |parts|
  {
    if |parts| == 1 {
      SplitNoSeparator(parts[0], sep);
    } else {
      SplitJoin(parts[1..], sep);
      SplitAfterPiece(parts[0], sep, Join(parts[1..], [sep]));
      assert [parts[0]] + parts[1..] == parts;
    }
  }

  /** `toLowerCase` on one code point, restricted to the ASCII letters. */
  function LowerChar(c: char): char {
    if 'A' <= c <= 'Z' then (c as int + 32) as char else c
  }

  /** `toLowerCase`, code point by code point (ASCII letters only). */
  function Lower(s: string): (r: string)
    ensures |r| == |s|
    ensures forall i :: 0 <= i < |s| ==> !('A' <= r[i] <= 'Z')
    ensures forall i :: 0 <= i < |s| && !('A' <= s[i] <= 'Z') ==> r[i] == s[i]
    ensures forall i :: 0 <= i < |s| && 'A' <= s[i] <= 'Z' ==> r[i] == (s[i] as int + 32) as char
  {
    seq(|s|, i requires 0 <= i < |s| => LowerChar(s[i]))
  }

  /** Lower-casing is idempotent. */
  lemma LowerIdempotent(s: string)
    ensures Lower(Lower(s)) == Lower(s)
  {
  }

  /** Lower-casing commutes with slicing. */
  lemma LowerSlice(s: string, i: nat, j: nat)
    requires i <= j <= |s|
    ensures Lower(s)[i..j] == Lower(s[i..j])
  {
  }

  /** `s.includes(t)`: tries every offset from the front. */
  predicate Contains(s: string, t: string)
    decreases |s|
  {
    (|t| <= |s| && s[..|t|] == t) || (|s| > 0 && Contains(s[1..], t))
  }

  /** A match found by `Contains` is an occurrence at some offset. */
  lemma {:induction false} ContainsHasOffset(s: string, t: string) returns (i: nat)
    requires Contains(s, t)
    ensures OccursAt(s, t, i)
    decreases |s|
  {
    if |t| <= |s| && s[..|t|] == t {
      i := 0;
    } else {
      var j := ContainsHasOffset(s[1..], t);
      assert s[1..][j..j + |t|] == s[j + 1..j + 1 + |t|];
      i := j + 1;
    }
  }

  /** An occurrence at any offset is found by `Contains`. */
  lemma {:induction false} OffsetIsContained(s: string, t: string, i: nat)
    requires OccursAt(s, t, i)
    ensures Contains(s, t)
    decreases i
  {
    if i > 0 {
      assert s[1..][i - 1..i - 1 + |t|] == s[i..i + |t|];
      OffsetIsContained(s[1..], t, i - 1);
    } else {
      assert s[..|t|] == s[0..0 + |t|];
    }
  }

  /** `Contains` holds exactly when `t` occurs somewhere in `s`. */
  lemma ContainsIffOccurs(s: string, t: string)
    ensures Contains(s, t) <==> exists i :: OccursAt(s, t, i)
  {
    if Contains(s, t) {
      var i := ContainsHasOffset(s, t);
    }
    if i :| OccursAt(s, t, i) {
      OffsetIsContained(s, t, i);
    }
  }

  /** The empty string is contained in every string. */
  lemma ContainsEmpty(s: string)
    ensures Contains(s, "")
  {
    assert s[..0] == "";
  }

  /** An occurrence in `b` is an occurrence in `a + b + c`. */
  lemma ContainsInfix(a: string, b: string, c: string, t: string)
    requires Contains(b, t)
    ensures Contains(a + b + c, t)
  {
    ContainsIffOccurs(b, t);
    var i :| OccursAt(b, t, i);
    assert (a + b + c)[|a| + i..|a| + i + |t|] == b[i..i + |t|];
    assert OccursAt(a + b + c, t, |a| + i);
    ContainsIffOccurs(a + b + c, t);
  }

  /** Every string contains itself. */
  lemma ContainsSelf(s: string)
    ensures Contains(s, s)
  {
    assert s[..|s|] == s;
  }

  /** Every part of a join is a substring of the join. */
  lemma {:induction false} JoinContainsPart(parts: seq<string>, sep: string, k: nat)
    requires k < |parts|
    ensures Contains(Join(parts, sep), parts[k])
    decreases |parts|
  {
    if |parts| == 1 {
      ContainsSelf(parts[0]);
    } else if k == 0 {
      ContainsSelf(parts[0]);
      ContainsInfix("", parts[0], sep + Join(parts[1..], sep), parts[0]);
      assert "" + parts[0] + (sep + Join(parts[1..], sep)) == Join(parts, sep);
    } else {
      JoinContainsPart(parts[1..], sep, k - 1);
      ContainsInfix(parts[0] + sep, Join(parts[1..], sep), "", parts[k]);
      assert parts[0] + sep + Join(parts[1..], sep) + "" == Join(parts, sep);
    }
  }

  /** A match survives lower-casing both sides: this is what makes the
      search case-insensitive. */
  lemma ContainsLower(s: string, t: string)
    requires Contains(s, t)
    ensures Contains(Lower(s), Lower(t))
  {
    ContainsIffOccurs(s, t);
    var i :| OccursAt(s, t, i);
    LowerSlice(s, i, i + |t|);
    assert OccursAt(Lower(s), Lower(t), i);
    ContainsIffOccurs(Lower(s), Lower(t));
  }
}

=== FILE: utils.dfy ===
/**
  The pure helpers of the shared `Utils` class: the distinct-genre index,
  pagination, and the width/height rule of the image compressor.
 */
module Utils {
  import opened Records

  // ---------------------------------------------------------------------------
  // getAllGenres
  // ---------------------------------------------------------------------------

  /** Every genre label of `list`, drama by drama, repeats included. */
  function GenreOccurrences(list: seq<Drama>): (r: seq<string>)
    ensures forall g :: g in r <==> exists i :: 0 <= i < |list| && g in list[i].genre
    decreases |list|
  {
    if |list| == 0 then []
    else
      var rest := GenreOccurrences(list[1..]);
      assert forall i :: 0 < i < |list| ==> list[i] == list[1..][i - 1];
      list[0].genre + rest
  }

  /** The position of the first occurrence of `g` in `s`. */
  function IndexOf(s: seq<string>, g: string): (r: nat)
    requires g in s
    ensures r < |s| && s[r] == g && g !in s[..r]
    decreases |s|
  {
    if s[0] == g then 0
    else
      var r := 1 + IndexOf(s[1..], g);
      assert s[..r] == [s[0]] + s[1..][..r - 1];
      r
  }

  /** Adds the labels of `s` to the ones already `seen`, skipping repeats, in
      the order a JavaScript `Set` keeps: first insertion wins. */
  function AddNew(seen: seq<string>, s: seq<string>): (r: seq<string>)
    requires Distinct(seen)
    ensures Distinct(r)
    ensures |r| >= |seen| && r[..|seen|] == seen
    ensures forall g :: g in r <==> g in seen || g in s
    ensures forall i :: |seen| <= i < |r| ==> r[i] !in seen && r[i] in s
    decreases |s|
  {
    if |s| == 0 then seen
    else if s[0] in seen then AddNew(seen, s[1..])
    else AddNew(seen + [s[0]], s[1..])
  }

  /** The labels `AddNew` adds come in the order of their first occurrence
      in `s`. With the contract of `AddNew` this pins its result: the labels
      already seen, then each new label of `s` once, in first-met order. */
  lemma {:induction false} AddNewKeepsFirstOrder(seen: seq<string>, s: seq<string>, i: nat, j: nat)
    requires Distinct(seen)
    requires |seen| <= i < j < |AddNew(seen, s)|
    ensures IndexOf(s, AddNew(seen, s)[i]) < IndexOf(s, AddNew(seen, s)[j])
    decreases |s|
  {
    var r := AddNew(seen, s);
    if s[0] in seen {
      AddNewKeepsFirstOrder(seen, s[1..], i, j);
    } else {
      assert r[|seen|] == s[0] by {
        assert r[..|seen| + 1] == seen + [s[0]];
      }
      if i > |seen| {
        AddNewKeepsFirstOrder(seen + [s[0]], s[1..], i, j);
      }
    }
  }

  /** `getAllGenres`: every genre label of every drama of every season, each
      once, in the order the labels are first met scanning seasons in key
      order. */
  function AllGenres(c: Catalog): (r: seq<string>)
    ensures Distinct(r)
    ensures forall g :: g in r <==>
      exists k, d :: k in c.order && k in c.lists && d in c.lists[k] && g in d.genre
  {
    var all := Flatten(c);
    var r := AddNew([], GenreOccurrences(all));
    forall g ensures g in r <==> exists k, d :: k in c.order && k in c.lists && d in c.lists[k] && g in d.genre {
      if g in r {
        var i :| 0 <= i < |all| && g in all[i].genre;
        FlattenKeysMember(c.lists, c.order, all[i]);
      }
      if k, d :| k in c.order && k in c.lists && d in c.lists[k] && g in d.genre {
        FlattenKeysMember(c.lists, c.order, d);
        var i :| 0 <= i < |all| && all[i] == d;
      }
    }
    r
  }

  // ---------------------------------------------------------------------------
  // paginate
  // ---------------------------------------------------------------------------

  function Min(a: int, b: int): int {
    if a < b then a else b
  }

  /** A product of non-negative numbers is non-negative. */
  lemma MulNonneg(x: int, y: int)
    requires x >= 0 && y >= 0
    ensures x * y >= 0
  {
  }

  /** Multiplying by a non-negative factor keeps the order. */
  lemma MulMonotone(q: int, x: int, y: int)
    requires q >= 0
    ensures x <= y ==> q * x <= q * y
  {
    if x <= y {
      MulNonneg(q, y - x);
      assert q * y - q * x == q * (y - x);
    }
  }

  /** From `q * x <= q * y` with `q > 0`, `x <= y`. */
  lemma CancelFactor(q: int, x: int, y: int)
    requires q > 0
    ensures q * x <= q * y ==> x <= y
  {
    if x > y {
      MulMonotone(q, y + 1, x);
      assert q * (y + 1) == q * y + q;
    }
  }

  /** How `Array.prototype.slice` reads a start or end argument: a negative
      one counts back from the end; both are clamped into `0..n`. */
  function SliceBound(x: int, n: nat): (r: nat)
    ensures r <= n
    ensures x >= 0 ==> r == Min(x, n)
    ensures x < 0 ==> r == (if n + x < 0 then 0 else n + x)
  {
    if x < 0 then (if n + x < 0 then 0 else n + x) else Min(x, n)
  }

  /** `a.slice(start, end)`: the elements from the clamped start up to the
      clamped end, and none when the clamped start is not below the clamped
      end; for non-negative arguments the plain slice cut off at the end of
      the array (empty when `end` is 0). */
  function Slice<T>(a: seq<T>, start: int, end: int): (r: seq<T>)
    ensures SliceBound(start, |a|) + |r| <= |a|
    ensures |r| == if SliceBound(start, |a|) < SliceBound(end, |a|) then SliceBound(end, |a|) - SliceBound(start, |a|) else 0
    ensures forall i :: 0 <= i < |r| ==> r[i] == a[SliceBound(start, |a|) + i]
    ensures 0 <= start <= end ==> r == a[Min(start, |a|)..Min(end, |a|)]
    ensures end == 0 ==> r == []
  {
    var from := SliceBound(start, |a|);
    var to := SliceBound(end, |a|);
    if from < to then a[from..to] else []
  }

  /** The result of `paginate`. */
  datatype Page<T> = Page(data: seq<T>, totalPages: nat, totalItems: nat)

  /** `Math.ceil(n / d)` for a positive divisor. */
  function CeilDiv(n: nat, d: nat): (r: nat)
    requires d > 0
    ensures r * d >= n
    ensures r == 0 || (r - 1) * d < n
  {
    var r := (n + d - 1) / d;
    var m := (n + d - 1) % d;
    assert n + d - 1 == r * d + m && 0 <= m < d;
    assert (r - 1) * d == r * d - d;
    r
  }

  /** The first index of page `page`: `(page - 1) * pageSize`. */
  function PageStart(page: int, pageSize: int): (s: int)
    ensures page >= 1 && pageSize >= 0 ==> s >= 0
    ensures s + pageSize == page * pageSize
  {
    var s := (page - 1) * pageSize;
    assert page >= 1 && pageSize >= 0 ==> s >= 0 by {
      if page >= 1 && pageSize >= 0 {
        MulNonneg(page - 1, pageSize);
      }
    }
    assert s + pageSize == page * pageSize;
    s
  }

  /** `paginate(array, page, pageSize)`: page `page` (counting from 1) holds
      the elements from `(page - 1) * pageSize` up to `page * pageSize`, cut
      off at the end of the array, so a page past the end is empty; the page
      count is the ceiling of `|array| / pageSize`, which is 0 for an empty
      array. */
  function Paginate<T>(a: seq<T>, page: int, pageSize: int): (p: Page<T>)
    requires pageSize > 0
    ensures p.totalItems == |a|
    ensures p.totalPages * pageSize >= |a|
    ensures p.totalPages == 0 || (p.totalPages - 1) * pageSize < |a|
    ensures |p.data| <= pageSize
    ensures page >= 1 ==>
      p.data == a[Min(PageStart(page, pageSize), |a|)..Min(PageStart(page, pageSize) + pageSize, |a|)]
    ensures page == 0 ==> p.data == []
  {
    var start := PageStart(page, pageSize);
    Page(Slice(a, start, start + pageSize), CeilDiv(|a|, pageSize), |a|)
  }

  /** The data of pages `first` to `last`, concatenated. */
  function PagesFrom<T>(a: seq<T>, pageSize: int, first: int, last: int): seq<T>
    requires pageSize > 0 && first >= 1
    decreases if last >= first then last - first + 1 else 0
  {
    if first > last then []
    else Paginate(a, first, pageSize).data + PagesFrom(a, pageSize, first + 1, last)
  }

  /** Each page starts `pageSize` after the one before. */
  lemma PageStartNext(page: int, pageSize: int)
    ensures PageStart(page + 1, pageSize) == PageStart(page, pageSize) + pageSize
  {
    assert page * pageSize == (page - 1) * pageSize + pageSize;
  }

  /** A page after a page that reaches the end starts past the end. */
  lemma PageStartPastEnd(n: nat, pageSize: int, first: int, last: int)
    requires pageSize > 0 && first > last && last * pageSize >= n
    ensures PageStart(first, pageSize) >= n
  {
    MulMonotone(pageSize, last, first - 1);
  }

  /** A page followed by everything from the next page's start is everything
      from the page's own start. */
  lemma PageThenRest<T>(a: seq<T>, pageSize: int, page: int)
    requires pageSize > 0 && page >= 1
    ensures Paginate(a, page, pageSize).data + a[Min(PageStart(page + 1, pageSize), |a|)..]
      == a[Min(PageStart(page, pageSize), |a|)..]
  {
    PageStartNext(page, pageSize);
    var lo := Min(PageStart(page, pageSize), |a|);
    var mid := Min(PageStart(page, pageSize) + pageSize, |a|);
    assert a[lo..mid] + a[mid..] == a[lo..];
  }

  /** Pages `first` onwards, up to a page that reaches the end, are exactly
      the array from the start of page `first`. */
  lemma {:induction false} PagesFromSuffix<T>(a: seq<T>, pageSize: int, first: int, last: int)
    requires pageSize > 0 && first >= 1
    requires last * pageSize >= |a|
    ensures PagesFrom(a, pageSize, first, last) == a[Min(PageStart(first, pageSize), |a|)..]
    decreases if last >= first then last - first + 1 else 0
  {
    if first > last {
      PageStartPastEnd(|a|, pageSize, first, last);
    } else {
      PagesFromSuffix(a, pageSize, first + 1, last);
      PageThenRest(a, pageSize, first);
    }
  }

  /** Concatenating the data of pages 1 to `totalPages` gives back the whole
      array: the pages cover every element once and in order. */
  lemma PagesCoverArray<T>(a: seq<T>, pageSize: int)
    requires pageSize > 0
    ensures PagesFrom(a, pageSize, 1, Paginate(a, 1, pageSize).totalPages) == a
  {
    PagesFromSuffix(a, pageSize, 1, Paginate(a, 1, pageSize).totalPages);
    assert PageStart(1, pageSize) == 0;
  }

  /** Index `j` lies `j % pageSize` places into page `j / pageSize + 1`. */
  lemma PageOfIndex(j: nat, pageSize: int)
    requires pageSize > 0
    ensures PageStart(j / pageSize + 1, pageSize) + j % pageSize == j
    ensures 0 <= j % pageSize < pageSize && PageStart(j / pageSize + 1, pageSize) >= 0
  {
    var q := j / pageSize;
    assert j == q * pageSize + j % pageSize;
    assert PageStart(q + 1, pageSize) == q * pageSize;
  }

  /** Every index of the array is on a page within the page count. */
  lemma PageWithinCount(n: nat, pageSize: int, total: nat, j: nat)
    requires pageSize > 0 && j < n && total * pageSize >= n
    ensures j / pageSize + 1 <= total
  {
    PageOfIndex(j, pageSize);
    MulMonotone(pageSize, total, j / pageSize);
    assert PageStart(j / pageSize + 1, pageSize) == j / pageSize * pageSize;
  }

  /** Element `j` of the array is on page `j / pageSize + 1`, at position
      `j % pageSize`, and that page is within the page count. */
  lemma PageOfElement<T>(a: seq<T>, pageSize: int, j: nat)
    requires pageSize > 0 && j < |a|
    ensures j / pageSize + 1 <= Paginate(a, 1, pageSize).totalPages
    ensures j % pageSize < |Paginate(a, j / pageSize + 1, pageSize).data|
    ensures Paginate(a, j / pageSize + 1, pageSize).data[j % pageSize] == a[j]
  {
    PageOfIndex(j, pageSize);
    PageWithinCount(|a|, pageSize, Paginate(a, 1, pageSize).totalPages, j);
  }

  // ---------------------------------------------------------------------------
  // The dimension rule of compressImage
  // ---------------------------------------------------------------------------

  /** Image dimensions in pixels. */
  datatype Size = Size(width: nat, height: nat)

  /** `Math.round(p / q)` for `p >= 0`, `q > 0`: the nearest integer, halves
      rounded up, that is `r - 1/2 <= p / q < r + 1/2`. */
  function RoundDiv(p: nat, q: nat): (r: nat)
    requires q > 0
    ensures q * (2 * r - 1) <= 2 * p < q * (2 * r + 1)
  {
    var r := (2 * p + q) / (2 * q);
    assert 2 * p + q == r * (2 * q) + (2 * p + q) % (2 * q);
    r
  }

  /** A rounded quotient is at most `m` when the exact one is. */
  lemma RoundDivAtMost(p: nat, q: nat, m: nat)
    requires q > 0 && p <= q * m
    ensures RoundDiv(p, q) <= m
  {
    var r: int := RoundDiv(p, q);
    assert q * (2 * r - 1) <= q * (2 * m);
    CancelFactor(q, 2 * r - 1, 2 * m);
  }

  /** Scaling `a` by `b / c` and rounding gives at most `a` when `b <= c`,
      and at most `b` when `a <= c`. */
  lemma ScaledAtMost(a: nat, b: nat, c: nat)
    requires c > 0
    ensures b <= c ==> RoundDiv(a * b, c) <= a
    ensures a <= c ==> RoundDiv(a * b, c) <= b
  {
    if b <= c {
      MulMonotone(a, b, c);
      RoundDivAtMost(a * b, c, a);
    }
    if a <= c {
      MulMonotone(b, a, c);
      RoundDivAtMost(a * b, c, b);
    }
  }

  /** `side` scaled by `limit / over` and rounded, for a dimension `over`
      that exceeds its `limit`: it is the nearest integer to the exact ratio,
      and it grows neither `side` nor, when `side <= over`, past `limit`. */
  function ScaleSide(side: nat, limit: nat, over: nat): (r: nat)
    requires limit < over
    ensures over * (2 * r - 1) <= 2 * (side * limit) < over * (2 * r + 1)
    ensures r <= side
    ensures side <= over ==> r <= limit
  {
    ScaledAtMost(side, limit, over);
    RoundDiv(side * limit, over)
  }

  /** The scaling rule of `compressImage`: a landscape image wider than
      `maxWidth` is narrowed to `maxWidth`, its height scaled by the same
      ratio and rounded; any other image taller than `maxHeight` is shortened
      to `maxHeight`, its width scaled and rounded; everything else keeps its
      size. No dimension ever grows, and a landscape image never turns
      portrait. */
  function ScaleDimensions(width: nat, height: nat, maxWidth: nat, maxHeight: nat): (r: Size)
    ensures width > height && width > maxWidth ==>
      && r.width == maxWidth
      && width * (2 * r.height - 1) <= 2 * (height * maxWidth) < width * (2 * r.height + 1)
    ensures width <= height && height > maxHeight ==>
      && r.height == maxHeight
      && height * (2 * r.width - 1) <= 2 * (width * maxHeight) < height * (2 * r.width + 1)
      && r.width <= maxHeight
    ensures (width > height && width <= maxWidth) || (width <= height && height <= maxHeight) ==>
      r == Size(width, height)
    ensures r.width <= width && r.height <= height
    ensures width > height ==> r.height <= r.width
  {
    if width > height then
      if width > maxWidth then Size(maxWidth, ScaleSide(height, maxWidth, width))
      else Size(width, height)
    else
      if height > maxHeight then Size(ScaleSide(width, maxHeight, height), maxHeight)
      else Size(width, height)
  }

  /** The landscape branch never looks at `maxHeight`: with the defaults
      800 x 600, a 1000 x 900 image comes out 800 x 720, and an 800 x 700 one
      is left at 800 x 700, both taller than 600. */
  lemma LandscapeIgnoresMaxHeight()
    ensures ScaleDimensions(1000, 900, 800, 600) == Size(800, 720)
    ensures ScaleDimensions(800, 700, 800, 600) == Size(800, 700)
    ensures ScaleDimensions(1000, 900, 800, 600).height > 600
  {
  }

  /** When an image does not fit the box, the limit whose ratio is smaller
      is the one the image exceeds: if `width * maxHeight >= height *
      maxWidth`, the width is over its limit, and otherwise the height is. */
  lemma BindingLimit(width: nat, height: nat, maxWidth: nat, maxHeight: nat)
    requires maxWidth > 0 && maxHeight > 0
    ensures width <= maxWidth && height > maxHeight ==> width * maxHeight < height * maxWidth
    ensures height <= maxHeight && width > maxWidth ==> height * maxWidth < width * maxHeight
  {
    if width <= maxWidth && height > maxHeight {
      MulMonotone(maxHeight, width, maxWidth);
      MulMonotone(maxWidth, maxHeight + 1, height);
    }
    if height <= maxHeight && width > maxWidth {
      MulMonotone(maxWidth, height, maxHeight);
      MulMonotone(maxHeight, maxWidth + 1, width);
    }
  }

  /** The scaling rule with both limits honoured: an image that does not fit
      the `maxWidth` x `maxHeight` box is scaled down by whichever ratio is
      smaller, so that it fits; an image that fits keeps its size. */
  function FitDimensions(width: nat, height: nat, maxWidth: nat, maxHeight: nat): (r: Size)
    requires maxWidth > 0 && maxHeight > 0
    ensures r.width <= maxWidth && r.height <= maxHeight
    ensures r.width <= width && r.height <= height
    ensures width <= maxWidth && height <= maxHeight ==> r == Size(width, height)
  {
    BindingLimit(width, height, maxWidth, maxHeight);
    if width <= maxWidth && height <= maxHeight then Size(width, height)
    else if width * maxHeight >= height * maxWidth then
      // the width limit binds
      RoundDivAtMost(height * maxWidth, width, maxHeight);
      ScaledAtMost(height, maxWidth, width);
      Size(maxWidth, RoundDiv(height * maxWidth, width))
    else
      // the height limit binds
      RoundDivAtMost(width * maxHeight, height, maxWidth);
      ScaledAtMost(width, maxHeight, height);
      Size(RoundDiv(width * maxHeight, height), maxHeight)
  }

  /** The corrected rule brings the counterexample into the box. */
  lemma FitHonoursMaxHeight()
    ensures FitDimensions(1000, 900, 800, 600) == Size(667, 600)
    ensures FitDimensions(800, 700, 800, 600) == Size(686, 600)
  {
  }
}

=== FILE: views.dfy ===
/**
  What the pages decide about each drama card: whether the filter bar or the
  search box hides it, and which genre boxes of the edit form are ticked.
  A card shows its drama's fields; its `data-genre` attribute is the genre
  list joined with ','.
 */
module Views {
  import opened Text
  import opened Records
  import Store
  import Utils
  import Wrappers

  /** The `data-genre` attribute of a drama's card. */
  function GenreAttr(d: Drama): string {
    Join(d.genre, ",")
  }

  // ---------------------------------------------------------------------------
  // applyFilters
  // ---------------------------------------------------------------------------

  /** The three selects of the filter bar; "" is the "all" choice. */
  datatype Filters = Filters(year: string, season: string, genre: string)

  /** The filter bar set to "all" everywhere. */
  const NoFilters: Filters := Filters("", "", "")

  /** One card under `applyFilters`: it starts visible and each non-empty
      filter that disagrees with the card hides it. The genre filter only asks
      whether its text occurs somewhere in the card's joined genre attribute. */
  function FilterShown(f: Filters, d: Drama): (show: bool)
    ensures show <==>
      && (f.year == "" || d.year == f.year)
      && (f.season == "" || d.season == f.season)
      && (f.genre == "" || Contains(GenreAttr(d), f.genre))
  {
    var afterYear := !(f.year != "" && d.year != f.year);
    var afterSeason := if f.season != "" && d.season != f.season then false else afterYear;
    if f.genre != "" && !Contains(GenreAttr(d), f.genre) then false else afterSeason
  }

  /** `applyFilters` over the cards on the page: one visibility flag per card,
      in card order. */
  function ApplyFilters(f: Filters, cards: seq<Drama>): (shown: seq<bool>)
    ensures |shown| == |cards|
    ensures forall i :: 0 <= i < |cards| ==> shown[i] == FilterShown(f, cards[i])
  {
    seq(|cards|, i requires 0 <= i < |cards| => FilterShown(f, cards[i]))
  }

  /** With every filter at "all", every card is shown. */
  lemma NoFiltersShowAll(cards: seq<Drama>)
    ensures forall i :: 0 <= i < |cards| ==> ApplyFilters(NoFilters, cards)[i]
  {
  }

  /** A card whose drama lists genre `g` passes the genre filter `g`. */
  lemma GenreMemberPasses(d: Drama, k: nat)
    requires k < |d.genre|
    ensures FilterShown(Filters("", "", d.genre[k]), d)
  {
    JoinContainsPart(d.genre, ",", k);
  }

  /** The genre filter is a substring test, not a membership test: a drama
      whose only genre is "Mystery" passes the filter "My", which it does not
      list. */
  lemma GenreFilterMatchesFragments()
    ensures var d := Drama("m", "", "", Winter, "", "", ["Mystery"], 0.0, "", "", "", "", [], "", Links("", "", ""));
      && "My" !in d.genre
      && FilterShown(Filters("", "", "My"), d)
  {
    var d := Drama("m", "", "", Winter, "", "", ["Mystery"], 0.0, "", "", "", "", [], "", Links("", "", ""));
    assert GenreAttr(d) == "Mystery";
    assert GenreAttr(d)[..2] == "My";
  }

  /** `showSeason(season)` lays out the cards of that season's list. In a
      catalog where every drama sits under its own season, the season filter
      set to that season hides none of them: the result is the same as with
      the season filter at "all". */
  lemma SeasonFilterRedundantOnItsPage(c: Catalog, k: string, f: Filters)
    requires WellSeasoned(c)
    ensures ApplyFilters(f.(season := k), SeasonOf(c.lists, k)) == ApplyFilters(f.(season := ""), SeasonOf(c.lists, k))
  {
    var cards := SeasonOf(c.lists, k);
    forall i | 0 <= i < |cards| ensures cards[i].season == k {
      assert cards[i] in c.lists[k];
    }
  }

  // ---------------------------------------------------------------------------
  // searchDramas
  // ---------------------------------------------------------------------------

  /** One card under `searchDramas(term)`: shown when `term` occurs in the
      lower-cased title, original title, description or joined genres. The
      cast, year, season and links are never looked at. */
  function SearchShown(term: string, d: Drama): (show: bool)
    ensures show <==>
      || Contains(Lower(d.title), term)
      || Contains(Lower(d.originalTitle), term)
      || Contains(Lower(d.desc), term)
      || Contains(Lower(GenreAttr(d)), term)
  {
    var fields := [Lower(d.title), Lower(d.originalTitle), Lower(d.desc), Lower(GenreAttr(d))];
    assert fields[0] == Lower(d.title) && fields[1] == Lower(d.originalTitle);
    assert fields[2] == Lower(d.desc) && fields[3] == Lower(GenreAttr(d));
    exists i :: 0 <= i < |fields| && Contains(fields[i], term)
  }

  /** `searchDramas` over the cards on the page, one flag per card. */
  function SearchDramas(term: string, cards: seq<Drama>): (shown: seq<bool>)
    ensures |shown| == |cards|
    ensures forall i :: 0 <= i < |cards| ==> shown[i] == SearchShown(term, cards[i])
  {
    seq(|cards|, i requires 0 <= i < |cards| => SearchShown(term, cards[i]))
  }

  /** The search button and the Enter key lower-case the box's text before
      searching. */
  function OnSearch(input: string, cards: seq<Drama>): (shown: seq<bool>)
    ensures |shown| == |cards|
    ensures forall i :: 0 <= i < |cards| ==> shown[i] == SearchShown(Lower(input), cards[i])
  {
    SearchDramas(Lower(input), cards)
  }

  /** An empty search box shows every card. */
  lemma EmptySearchShowsAll(cards: seq<Drama>)
    ensures forall i :: 0 <= i < |cards| ==> OnSearch("", cards)[i]
  {
    forall i | 0 <= i < |cards| ensures SearchShown("", cards[i]) {
      ContainsEmpty(Lower(cards[i].title));
    }
  }

  /** The search is case-insensitive in what is typed: typing a piece `part`
      of the title, in any mix of cases (`input` differs from `part` only in
      case), shows its card. The same holds for the original title and the
      description. */
  lemma SearchFindsTypedTitle(input: string, part: string, d: Drama)
    requires Lower(part) == Lower(input)
    requires Contains(d.title, part) || Contains(d.originalTitle, part) || Contains(d.desc, part)
    ensures SearchShown(Lower(input), d)
  {
    if Contains(d.title, part) {
      ContainsLower(d.title, part);
    } else if Contains(d.originalTitle, part) {
      ContainsLower(d.originalTitle, part);
    } else {
      ContainsLower(d.desc, part);
    }
  }

  /** Typing in upper or lower case makes no difference to what is shown. */
  lemma SearchIgnoresInputCase(input: string, cards: seq<Drama>)
    ensures OnSearch(Lower(input), cards) == OnSearch(input, cards)
  {
    LowerIdempotent(input);
  }

  /** Whether a card is shown does not depend on its cast. */
  lemma SearchIgnoresCast(term: string, d: Drama, cast: seq<string>)
    ensures SearchShown(term, d.(cast := cast)) == SearchShown(term, d)
  {
  }

  /** So a name that occurs only in the cast finds nothing: searching "kimura"
      hides a card whose only mention of Kimura is its cast list. */
  lemma CastOnlyMatchIsHidden()
    ensures var d := Drama("k", "", "", Winter, "", "", [], 0.0, "", "", "", "", ["kimura"], "", Links("", "", ""));
      && Contains(Join(d.cast, ", "), "kimura")
      && !SearchShown("kimura", d)
  {
    var d := Drama("k", "", "", Winter, "", "", [], 0.0, "", "", "", "", ["kimura"], "", Links("", "", ""));
    ContainsSelf("kimura");
    assert GenreAttr(d) == "";
    assert Lower("") == "";
  }

  // ---------------------------------------------------------------------------
  // The genre boxes of the edit form
  // ---------------------------------------------------------------------------

  /** An `<input type="checkbox" name="genre">` of the edit form. */
  datatype Checkbox = Checkbox(value: string, checked: bool)

  /** `renderGenreCheckboxes`: one unticked box per genre of the catalog, in
      the order of the genre index. */
  function RenderGenreCheckboxes(genres: seq<string>): (boxes: seq<Checkbox>)
    ensures |boxes| == |genres|
    ensures forall i :: 0 <= i < |boxes| ==> boxes[i].value == genres[i] && !boxes[i].checked
  {
    seq(|genres|, i requires 0 <= i < |genres| => Checkbox(genres[i], false))
  }

  /** The values of the ticked boxes in page order: what the form submits as
      its genre list (`formData.getAll('genre')`). */
  function CheckedValues(boxes: seq<Checkbox>): (r: seq<string>)
    ensures forall g :: g in r <==> exists i :: 0 <= i < |boxes| && boxes[i].checked && boxes[i].value == g
    decreases |boxes|
  {
    if |boxes| == 0 then []
    else
      var rest := CheckedValues(boxes[1..]);
      assert forall i :: 0 < i < |boxes| ==> boxes[i] == boxes[1..][i - 1];
      if boxes[0].checked then [boxes[0].value] + rest else rest
  }

  /** With no box ticked the form submits no genre. */
  lemma {:induction false} NoTicksNoValues(boxes: seq<Checkbox>)
    requires forall i :: 0 <= i < |boxes| ==> !boxes[i].checked
    ensures CheckedValues(boxes) == []
    decreases |boxes|
  {
    if |boxes| > 0 {
      NoTicksNoValues(boxes[1..]);
    }
  }

  /** The submitted values follow page order: the values of the boxes before
      come before those of the boxes after. */
  lemma {:induction false} CheckedValuesAppend(a: seq<Checkbox>, b: seq<Checkbox>)
    ensures CheckedValues(a + b) == CheckedValues(a) + CheckedValues(b)
    decreases |a|
  {
    if |a| == 0 {
      assert a + b == b;
    } else {
      assert (a + b)[0] == a[0];
      assert (a + b)[1..] == a[1..] + b;
      CheckedValuesAppend(a[1..], b);
      var head := if a[0].checked then [a[0].value] else [];
      assert CheckedValues(a + b) == head + CheckedValues(a[1..] + b);
      assert head + (CheckedValues(a[1..]) + CheckedValues(b)) == (head + CheckedValues(a[1..])) + CheckedValues(b);
    }
  }

  /** One box submits its value once when ticked and nothing otherwise; with
      `CheckedValuesAppend` this fixes the order and the number of repeats of
      the submitted list. */
  lemma CheckedValuesOne(b: Checkbox)
    ensures CheckedValues([b]) == if b.checked then [b.value] else []
  {
  }

  /** The labels of `s` that also occur in `keep`, in the order of `s`. */
  function KeepIn(s: seq<string>, keep: seq<string>): (r: seq<string>)
    ensures forall g :: g in r <==> g in s && g in keep
    decreases |s|
  {
    if |s| == 0 then []
    else
      var rest := KeepIn(s[1..], keep);
      assert forall g :: g in s <==> g == s[0] || g in s[1..];
      (if s[0] in keep then [s[0]] else []) + rest
  }

  /** Boxes carrying `values` in order, ticked exactly when their value is in
      `keep`, submit the values of `keep` in the order of the boxes. */
  lemma {:induction false} CheckedValuesOfTicked(boxes: seq<Checkbox>, values: seq<string>, keep: seq<string>)
    requires |boxes| == |values|
    requires forall i :: 0 <= i < |boxes| ==> boxes[i].value == values[i] && (boxes[i].checked <==> values[i] in keep)
    ensures CheckedValues(boxes) == KeepIn(values, keep)
    decreases |boxes|
  {
    if |boxes| > 0 {
      CheckedValuesOfTicked(boxes[1..], values[1..], keep);
    }
  }

  /** The management page's `populateForm`: every box is set, ticked exactly
      when its value is one of the drama's genres. */
  function AdminPopulate(boxes: seq<Checkbox>, d: Drama): (r: seq<Checkbox>)
    ensures |r| == |boxes|
    ensures forall i :: 0 <= i < |r| ==> r[i] == Checkbox(boxes[i].value, boxes[i].value in d.genre)
  {
    seq(|boxes|, i requires 0 <= i < |boxes| => Checkbox(boxes[i].value, boxes[i].value in d.genre))
  }

  /** The index of the first box with value `g`: the one `querySelector`
      returns. */
  function FirstBox(boxes: seq<Checkbox>, g: string): (r: int)
    ensures -1 <= r < |boxes|
    ensures r >= 0 ==> boxes[r].value == g && forall j :: 0 <= j < r ==> boxes[j].value != g
    ensures r == -1 <==> forall j :: 0 <= j < |boxes| ==> boxes[j].value != g
    decreases |boxes|
  {
    if |boxes| == 0 then -1
    else if boxes[0].value == g then 0
    else
      var r := FirstBox(boxes[1..], g);
      if r == -1 then -1 else r + 1
  }

  /** Ticks the first box with value `g`, if there is one. */
  function TickFirst(boxes: seq<Checkbox>, g: string): (r: seq<Checkbox>)
    ensures |r| == |boxes|
    ensures forall i :: 0 <= i < |r| ==>
      r[i] == Checkbox(boxes[i].value, boxes[i].checked || i == FirstBox(boxes, g))
  {
    var k := FirstBox(boxes, g);
    seq(|boxes|, i requires 0 <= i < |boxes| => Checkbox(boxes[i].value, boxes[i].checked || i == k))
  }

  /** The visitor page's `populateForm`: for each genre of the drama in turn,
      the first box with that value is ticked. No box is ever unticked. */
  function ScriptPopulate(boxes: seq<Checkbox>, genres: seq<string>): (r: seq<Checkbox>)
    ensures |r| == |boxes|
    ensures forall i :: 0 <= i < |r| ==> r[i].value == boxes[i].value
    ensures forall i :: 0 <= i < |r| ==>
      (r[i].checked <==> boxes[i].checked || (boxes[i].value in genres && FirstBox(boxes, boxes[i].value) == i))
    decreases |genres|
  {
    if |genres| == 0 then boxes
    else
      var once := TickFirst(boxes, genres[0]);
      var r := ScriptPopulate(once, genres[1..]);
      assert forall g :: FirstBox(once, g) == FirstBox(boxes, g) by {
        forall g ensures FirstBox(once, g) == FirstBox(boxes, g) {
          FirstBoxSameValues(once, boxes, g);
        }
      }
      assert forall g :: g in genres <==> g == genres[0] || g in genres[1..] by {
        assert genres == [genres[0]] + genres[1..];
      }
      r
  }

  /** `FirstBox` only looks at the values. */
  lemma {:induction false} FirstBoxSameValues(a: seq<Checkbox>, b: seq<Checkbox>, g: string)
    requires |a| == |b| && forall i :: 0 <= i < |a| ==> a[i].value == b[i].value
    ensures FirstBox(a, g) == FirstBox(b, g)
    decreases |a|
  {
    if |a| > 0 && a[0].value != g {
      FirstBoxSameValues(a[1..], b[1..], g);
    }
  }

  /** On the visitor page a box ticked before `populateForm` stays ticked
      whatever the drama's genres, while the management page clears it. On
      the edit path `form.reset()` unticks every box first, so stale ticks
      arise only when the form is filled again without a reset, as the
      Douban lookup does. */
  lemma ScriptKeepsStaleTicks(boxes: seq<Checkbox>, d: Drama, i: nat)
    requires i < |boxes| && boxes[i].checked && boxes[i].value !in d.genre
    ensures ScriptPopulate(boxes, d.genre)[i].checked
    ensures !AdminPopulate(boxes, d)[i].checked
  {
  }

  /** On freshly rendered boxes (unticked, one per distinct genre) the two
      `populateForm` versions agree. */
  lemma PopulateAgreeOnFreshBoxes(genres: seq<string>, d: Drama)
    requires Distinct(genres)
    ensures ScriptPopulate(RenderGenreCheckboxes(genres), d.genre) == AdminPopulate(RenderGenreCheckboxes(genres), d)
  {
    var boxes := RenderGenreCheckboxes(genres);
    forall i | 0 <= i < |boxes| ensures FirstBox(boxes, boxes[i].value) == i {
      var k := FirstBox(boxes, boxes[i].value);
      assert k >= 0;
      assert genres[k] == genres[i];
    }
  }

  /** Every genre of a drama stored in the catalog has a box in the rendered
      form. */
  lemma StoredGenresHaveBoxes(c: Catalog, d: Drama)
    requires exists k :: k in c.order && k in c.lists && d in c.lists[k]
    ensures forall g :: g in d.genre ==> g in Utils.AllGenres(c)
  {
  }

  /** The edit-mode step of `openEditDramaModal`: when the id is found,
      `populateForm` sets the boxes currently on the page from that drama. */
  function PopulateIfFound(c: Catalog, boxes: seq<Checkbox>, id: string): (r: seq<Checkbox>)
    ensures |r| == |boxes|
    ensures Store.FindDramaById(c, id).None? ==> r == boxes
    ensures Store.FindDramaById(c, id).Some? ==> r == AdminPopulate(boxes, Store.FindDramaById(c, id).value)
  {
    match Store.FindDramaById(c, id)
    case Some(d) => AdminPopulate(boxes, d)
    case None => boxes
  }

  /** Setting the container's markup throws away the boxes on the page and
      puts fresh ones in their place. */
  function ReplaceBoxes(onPage: seq<Checkbox>, genres: seq<string>): (boxes: seq<Checkbox>)
    ensures |boxes| == |genres|
    ensures forall i :: 0 <= i < |boxes| ==> boxes[i].value == genres[i] && !boxes[i].checked
  {
    RenderGenreCheckboxes(genres)
  }

  /** `openEditDramaModal` as written: the form is filled in (`populateForm`)
      and only then are the genre boxes rendered, which replaces them with
      fresh unticked ones. The boxes the user sees are all unticked. */
  function OpenEditBoxes(c: Catalog, stale: seq<Checkbox>, id: string): (boxes: seq<Checkbox>)
    ensures |boxes| == |Utils.AllGenres(c)|
    ensures forall i :: 0 <= i < |boxes| ==> !boxes[i].checked
  {
    ReplaceBoxes(PopulateIfFound(c, stale, id), Utils.AllGenres(c))
  }

  /** So editing a drama that has genres opens a form with no genre ticked,
      and submitting it unchanged saves the drama with no genres. */
  lemma EditFormDropsGenres(c: Catalog, stale: seq<Checkbox>, form: Store.Form, freshId: string)
    requires Store.FindDramaById(c, form.id).Some? && Store.FindDramaById(c, form.id).value.genre != []
    ensures CheckedValues(OpenEditBoxes(c, stale, form.id)) == []
    ensures Store.BuildDrama(form.(genre := CheckedValues(OpenEditBoxes(c, stale, form.id))), freshId).genre == []
    ensures Store.BuildDrama(form.(genre := CheckedValues(OpenEditBoxes(c, stale, form.id))), freshId).genre
      != Store.FindDramaById(c, form.id).value.genre
  {
    NoTicksNoValues(OpenEditBoxes(c, stale, form.id));
  }

  /** `openEditDramaModal` with the boxes rendered first and then filled in:
      a box is ticked exactly when its genre is one of the edited drama's. */
  function OpenEditBoxesFixed(c: Catalog, id: string): (boxes: seq<Checkbox>)
    ensures |boxes| == |Utils.AllGenres(c)|
    ensures forall i :: 0 <= i < |boxes| ==> boxes[i].value == Utils.AllGenres(c)[i]
    ensures forall i :: 0 <= i < |boxes| ==>
      (boxes[i].checked <==> Store.FindDramaById(c, id).Some? && boxes[i].value in Store.FindDramaById(c, id).value.genre)
  {
    PopulateIfFound(c, RenderGenreCheckboxes(Utils.AllGenres(c)), id)
  }

  /** With the corrected order the form submits the edited drama's genres as
      a set: each once, in the genre index's order, which need not be the
      order the drama lists them in. */
  lemma FixedEditFormKeepsGenres(c: Catalog, id: string)
    requires Store.FindDramaById(c, id).Some?
    ensures CheckedValues(OpenEditBoxesFixed(c, id)) == KeepIn(Utils.AllGenres(c), Store.FindDramaById(c, id).value.genre)
    ensures forall g :: g in CheckedValues(OpenEditBoxesFixed(c, id)) <==> g in Store.FindDramaById(c, id).value.genre
  {
    var d := Store.FindDramaById(c, id).value;
    CheckedValuesOfTicked(OpenEditBoxesFixed(c, id), Utils.AllGenres(c), d.genre);
    StoredGenresHaveBoxes(c, d);
  }

  /** A winter catalog of two dramas listing the genres "x" and "y" in
      opposite orders. */
  function ReorderCatalog(): Catalog {
    Catalog([Winter], map[Winter := [GenreDrama("a", ["x", "y"]), GenreDrama("b", ["y", "x"])]])
  }

  /** A winter drama with only an id and genres. */
  function GenreDrama(id: string, genre: seq<string>): Drama {
    Drama(id, "", "", Winter, "", "", genre, 0.0, "", "", "", "", [], "", Links("", "", ""))
  }

  /** Scanning that catalog meets the genres "x", "y", "y", "x". */
  lemma ReorderCatalogOccurrences()
    ensures Utils.GenreOccurrences(Flatten(ReorderCatalog())) == ["x", "y", "y", "x"]
  {
    var c := ReorderCatalog();
    var a := GenreDrama("a", ["x", "y"]);
    var b := GenreDrama("b", ["y", "x"]);
    assert [Winter][1..] == [];
    assert Flatten(c) == SeasonOf(c.lists, Winter) + FlattenKeys(c.lists, []) == [a, b] + [];
    assert [a, b][1..] == [b] && [b][1..] == [];
    assert Utils.GenreOccurrences([b]) == b.genre + [];
  }

  /** A `Set` fed "x", "y", "y", "x" holds "x", "y". */
  lemma AddNewExample()
    ensures Utils.AddNew([], ["x", "y", "y", "x"]) == ["x", "y"]
  {
    var occ := ["x", "y", "y", "x"];
    assert occ[1..] == ["y", "y", "x"] && occ[2..] == ["y", "x"] && occ[3..] == ["x"] && occ[3..][1..] == [];
    assert [] + ["x"] == ["x"] && ["x"] + ["y"] == ["x", "y"];
    assert Utils.AddNew(["x", "y"], occ[3..]) == Utils.AddNew(["x", "y"], []);
    assert Utils.AddNew(["x", "y"], occ[2..]) == Utils.AddNew(["x", "y"], occ[3..]);
    assert Utils.AddNew(["x"], occ[1..]) == Utils.AddNew(["x", "y"], occ[2..]);
    assert Utils.AddNew([], occ) == Utils.AddNew(["x"], occ[1..]);
  }

  /** The genre index of that catalog meets "x" first. */
  lemma ReorderCatalogGenres()
    ensures Utils.AllGenres(ReorderCatalog()) == ["x", "y"]
  {
    ReorderCatalogOccurrences();
    AddNewExample();
  }

  /** In that catalog `findDramaById("b")` returns the second drama. */
  lemma ReorderCatalogFindsB()
    ensures Store.FindDramaById(ReorderCatalog(), "b") == Wrappers.Some(GenreDrama("b", ["y", "x"]))
  {
    var a := GenreDrama("a", ["x", "y"]);
    var b := GenreDrama("b", ["y", "x"]);
    assert [a, b][1..] == [b];
    assert [Winter][1..] == [];
  }

  /** Keeping "y" and "x" from the index "x", "y" gives "x", "y". */
  lemma KeepInExample()
    ensures KeepIn(["x", "y"], ["y", "x"]) == ["x", "y"]
  {
    assert ["x", "y"][1..] == ["y"] && ["y"][1..] == [];
    assert KeepIn(["x", "y"], ["y", "x"]) == ["x"] + (["y"] + []);
  }

  /** Even corrected, an edit saved unchanged can reorder a drama's genres:
      with "x" met first in the index, the drama listing "y", "x" submits
      "x", "y". */
  lemma FixedEditFormReorders()
    ensures Store.FindDramaById(ReorderCatalog(), "b") == Wrappers.Some(GenreDrama("b", ["y", "x"]))
    ensures CheckedValues(OpenEditBoxesFixed(ReorderCatalog(), "b")) == ["x", "y"] != GenreDrama("b", ["y", "x"]).genre
  {
    ReorderCatalogFindsB();
    ReorderCatalogGenres();
    FixedEditFormKeepsGenres(ReorderCatalog(), "b");
    KeepInExample();
  }
}

=== FILE: wrappers.dfy ===
/** The optional and fallible results the catalog operations return. */
module Wrappers {

  /** A value that may be missing: the source's `null` / `undefined`. */
  datatype Option<+T> = None | Some(value: T) {

    /** The value, or `default` when it is missing (`x || default`). */
    function GetOr(default: T): T {
      match this
      case Some(v) => v
      case None => default
    }
  }

  /** Either a result or the error the source would have thrown. */
  datatype Result<+T, +E> = Success(value: T) | Failure(error: E)
}
